=== FILE: README.md ===
# camt.053.001.04 to camt.053.001.08 converter, modelled in Dafny

The converter takes an ISO 20022 camt.053 bank-to-customer statement written
against message version 001.04. It rewrites the parsed XML tree in place so
that the document reads as version 001.08, in four passes that run in this
order:

1. **Root declarations** (`Namespaces`). The document element gets
   `xmlns` (the 001.08 URN), `xmlns:xsi` (the XML Schema instance URI) and
   `xsi:schemaLocation` (`"<001.08 URN> camt.053.001.08.xsd"`). These use DOM
   `setAttribute` semantics: an existing attribute is replaced in place,
   and a new one is appended.
2. **Amounts** (`Amounts`). Every `Amt` element, at any depth, that has a
   direct `Ccy` child is rewritten. This is the intended end state; the code
   as written stops at the first such amount under the DOM Standard (see
   Findings).
   - Its `Ccy` attribute is set to the text of the first such child.
   - Its content becomes its former text content with the first occurrence
     of the currency removed (ECMAScript `String.replace` with a string
     pattern), then trimmed (ECMAScript `trim`).
3. **Related parties** (`Parties`). Every `RltdPties` at XPath
   `NtryDtls/TxDtls/RltdPties` is replaced, in place, by a freshly built block
   `RltdPties/(Cdtr/Pty/(Nm, PstlAdr/AdrLine), CdtrAcct/Id/IBAN)`.
   - Its three values are the text of the first `Nm`, `AdrLine` and `IBAN`
     descendant of the old block.
   - A value that is missing or empty falls back to `"Unbekannt"`,
     `"Unbekannt"` and `"CH0000000000000000000"` respectively.
4. **Related agents** (`Agents`). Every `RltdAgts` at XPath
   `NtryDtls/TxDtls/RltdAgts` loses all its children.

The model is functional.
- `Xml` defines an inductive element tree: a tag, an ordered attribute list,
  and an ordered list of element and text children. It also defines the DOM
  operations the converter uses: reading and assigning `textContent`, and
  `setAttribute`. It also defines `getAttribute`, which the converter does
  not call; the contracts use it to read attributes back.
- The two XPath selections are written as explicit traversals:
  - the document-order walk `Walk`, which is what `//x` enumerates, with each
    element's parent and grandparent tags;
  - the depth-first `FindDescendant`, which is what `.//x` yields as its
    first node. It is proved equal to the first match of the walk.
- Each pass is a pure function.
  - The root-declarations pass changes only the document element.
  - The amount pass works top-down and needs no context, since its selection
    `//Amt` tests no ancestor.
  - The related-parties and related-agents passes work top-down with the
    parent and grandparent tags as context. Their selections
    (`NtryDtls/TxDtls/RltdPties`, `NtryDtls/TxDtls/RltdAgts`) test both.
- `Converter.Convert` composes the four passes.

Each pass has the same set of properties:
- a **completeness** lemma: after the pass, every element the pass targets
  satisfies the pass's predicate over the walk;
- a **fixed-point** lemma: a tree that already satisfies the predicate is
  left unchanged;
- **idempotence**.

Separate lemmas show that later passes keep what earlier passes
established. Together these give `Converter.ConvertIdempotent`.

The related-parties block has two descriptions that are proved to agree:
- a shape predicate, `HasTargetShape`, written independently of the builder;
- the builder itself.

Reading a built block gives back its values (`ReadPartiesBlock`). Any
element of the target shape is the block built from what it reads
(`ShapeIsBlock`).

When a related-parties block lacks a name, an address line or an account
number, the converter writes the placeholder strings above in its place. It
has no typed error outcome for unreadable amounts or party blocks.

Two lemmas bound what the conversion may touch. A document
that has nothing left to rewrite comes back unchanged
(`Converter.ConvertFixedPoint`). A child of the root with nothing to rewrite
in its subtree comes back unchanged whatever happens to its siblings
(`Converter.ConvertKeepsChild`). The same holds for each pass on its own
(`NormalizeKeepsSibling`, `RebuildKeepsSibling`, `ClearKeepsSibling`).

## Model

| member | source | states |
|---|---|---|
| Strings.Trim | pages/api/convert.js:28 | `trim` leaves a string with no white space at either end. That string is the contiguous middle of the input, between a white-space-only prefix (up to the first non-space character) and a white-space-only suffix. |
| Strings.TrimPadded | pages/api/convert.js:28 | White space, then a trimmed core, then white space trims to exactly that core. Together with Trim's contract this pins Trim down completely. |
| Strings.TrimOfTrimmed | pages/api/convert.js:28 | A string with no white space at either end is left as it is by `trim`. |
| Strings.TrimIdempotent | pages/api/convert.js:28 | Trimming twice is trimming once. |
| Strings.TrimEmptyIff | pages/api/convert.js:28 | `trim` yields the empty string exactly when the input is all white space. |
| Strings.FindFrom | pages/api/convert.js:28 | Yields the first position at or after `from` where the pattern occurs. Yields None exactly when there is none. |
| Strings.ReplaceFirst | pages/api/convert.js:28 | `replace` with a string pattern replaces only the first occurrence. Without an occurrence the string comes back unchanged. |
| Strings.RemoveFirstAfterPrefix | pages/api/convert.js:28 | Removing the currency from `a + ccy + b` gives `a + b` when the currency's first character does not occur in `a`. |
| Xml.TextContentInDocumentOrder | pages/api/convert.js:27-28 | The `textContent` getter yields the strings of all descendant text nodes, joined in document order. |
| Xml.WalkMembers | pages/api/convert.js:23 | What `//x` enumerates is a pre-order walk. It holds the element itself, with its parent and grandparent tags, and the walks of its element children, each located under it, and nothing else. The same walk serves lines 34 and 69. |
| Xml.ContentOfAround | pages/api/convert.js:28 | The text content of a child list is the text before a child, then that child's text, then the text after it. |
| Xml.SetText | pages/api/convert.js:28 | After a `textContent` assignment, the element's text content is the assigned string. Tag and attributes are kept and only text children remain. |
| Xml.FirstChild | pages/api/convert.js:25-26 | `./Ccy` then `[0]` gives the position of the first child element with that tag, which no earlier child has. The result is absent exactly when no child has the tag. |
| Xml.SetAttr | pages/api/convert.js:18-19 | `setAttribute`: reading the name gives the new value and every other name reads as before. An existing attribute keeps its position; a new one is appended last. |
| Xml.SetAttrKeepsUnique | pages/api/convert.js:18-19 | `setAttribute` never introduces a duplicate attribute name. |
| Xml.SetAttrUnchanged | pages/api/convert.js:18-19 | Setting an attribute to the value it already has changes nothing. |
| Xml.FirstTagged | pages/api/convert.js:39-41 | The first element with a tag in a located list is absent exactly when no element has the tag. A present result has the tag. |
| Xml.FirstTaggedAt | pages/api/convert.js:39-41 | The element at index `k` is the first one with the tag when no earlier element has it. |
| Xml.FindDescendantInDocumentOrder | pages/api/convert.js:39-41 | `.//tag` then `[0]`, done as a depth-first search, finds exactly the first `tag` element in document order strictly below the element. |
| Namespaces.UpdateNamespace | pages/api/convert.js:8-20 | The root gets the three declarations with the 001.08 values. Every other root attribute and all children are untouched. Existing attributes keep their positions and attribute names stay unique. |
| Namespaces.UpdateNamespaceFixedPoint | pages/api/convert.js:17-20 | A root that already carries the three declarations is left as it is. |
| Namespaces.UpdateNamespaceIdempotent | pages/api/convert.js:17-20 | Rewriting the root twice is rewriting it once. |
| Amounts.PendingIff | pages/api/convert.js:25-26 | An element is rewritten exactly when it is an `Amt` with at least one direct `Ccy` child element. |
| Amounts.Currency | pages/api/convert.js:27 | The currency is the text content of the first direct `Ccy` child element, which no earlier child matches. |
| Amounts.MoveCurrency | pages/api/convert.js:25-30 | A nested amount gets its `Ccy` attribute from the first `Ccy` child's text, overwriting any existing one; other attributes are kept. It has no `Ccy` child afterwards. Its text is the old text content with the first occurrence of the currency removed, then trimmed. |
| Amounts.RemoveChild | pages/api/convert.js:29 | DOM `removeChild` throws NotFoundError exactly when the node is not a child. Otherwise it removes one occurrence and keeps tag and attributes. |
| Amounts.AmountStepAsWritten | pages/api/convert.js:25-30 | Under the DOM Standard, the loop body as written throws exactly for nested amounts and leaves every other element as it is. |
| Amounts.ScenarioNestedAmountAsWritten | pages/api/convert.js:27-29 | Under the DOM Standard, `<Amt>9.00<Ccy>CHF</Ccy></Amt>` as written ends in NotFoundError. |
| Amounts.NormalizeAmounts | pages/api/convert.js:23-31 | A nested amount is rewritten as MoveCurrency says. The result itself is not a nested amount. Any other element keeps its tag, attributes, child tags and text children. |
| Amounts.NormalizeLeavesNoPending | pages/api/convert.js:23-31 | Every `Amt` at any depth is visited: no `Amt` in the result's walk still has a `Ccy` child. |
| Amounts.NormalizeFixedPoint | pages/api/convert.js:23-26 | A subtree without nested amounts, which includes already-normalised amounts, is left exactly unchanged. |
| Amounts.NormalizeAllAt | pages/api/convert.js:23-31 | The pass handles each child on its own: it keeps the number of children, and the `i`th result child is the `i`th child normalised. |
| Amounts.NormalizeKeepsSibling | pages/api/convert.js:23-31 | Below an element that is not a nested amount, a child subtree with no nested amount comes out exactly as it went in, whatever happens to its siblings. |
| Amounts.NormalizeIdempotent | pages/api/convert.js:23-31 | Running the amount pass twice is running it once. |
| Amounts.NestedAmountText | pages/api/convert.js:28 | For amount text followed by the `Ccy` child, the text removed is that child's own text. This holds when the currency's first character is absent from the text before it. The result is the surrounding text, trimmed. |
| Amounts.ScenarioNestedAmount | pages/api/convert.js:23-31 | `<Amt>9.00<Ccy>CHF</Ccy></Amt>` becomes `<Amt Ccy="CHF">9.00</Amt>`. |
| Amounts.ScenarioNormalizedAmount | pages/api/convert.js:25-26 | `<Amt Ccy="..">..</Amt>` is left as it is. |
| Parties.FirstTextOr | pages/api/convert.js:39-41 | The result is the text of the first `tag` element in document order below the block when that text is non-empty, and the fallback otherwise. It is non-empty whenever the fallback is. |
| Parties.ReadParties | pages/api/convert.js:39-41 | The three values read from a block are always non-empty. |
| Parties.Leaf | pages/api/convert.js:45-49 | A created leaf has the given tag, no attributes, and the assigned text as its text content. |
| Parties.PartiesBlock | pages/api/convert.js:36-63 | The built block has the target shape whenever its values are non-empty. |
| Parties.BlockWalk | pages/api/convert.js:43-63 | The built block's elements in document order are `RltdPties, Cdtr, Pty, Nm, PstlAdr, AdrLine, CdtrAcct, Id, IBAN`, each with its parent and grandparent. |
| Parties.BlockTags | pages/api/convert.js:43-63 | A built block contains no element whose tag is foreign to the block. |
| Parties.BlockHasOneRltdPties | pages/api/convert.js:43-63 | Below its root, a built block holds no `RltdPties`. |
| Parties.ReadPartiesBlock | pages/api/convert.js:39-63 | Reading a built block gives back the values it was built from. |
| Parties.ReadBlockName | pages/api/convert.js:39-46 | The first `Nm` of a built block carries its name. |
| Parties.ReadBlockAddress | pages/api/convert.js:40-49 | The first `AdrLine` of a built block carries its address line. |
| Parties.ReadBlockIban | pages/api/convert.js:41-58 | The first `IBAN` of a built block carries its account number. |
| Parties.ShapeIsBlock | pages/api/convert.js:43-63 | Any element of the target shape is the block built from the values read from it. |
| Parties.RebuildBlockFixedIff | pages/api/convert.js:39-63 | Rebuilding a block leaves it unchanged exactly when it already has the target shape. |
| Parties.RebuildParties | pages/api/convert.js:34-66 | A `RltdPties` on the path is replaced in place by a block of the target shape that carries the values read from the old one. Any other element keeps its tag, attributes, child tags and text children. |
| Parties.ScenarioDebtorAsCreditor | pages/api/convert.js:39-41 | A block holding only `Dbtr/Nm` "ACME" and `DbtrAcct/Id/IBAN` "CH99" is read as name "ACME", the address placeholder and "CH99". On the path it is rebuilt into a `Cdtr`/`CdtrAcct` block with those values. |
| Parties.RebuildAllAt | pages/api/convert.js:34-66 | The pass handles each child on its own: it keeps the number of children, and the `i`th result child is the `i`th child rebuilt. |
| Parties.RebuildKeepsSibling | pages/api/convert.js:34-66 | Below an element that is not an on-path `RltdPties`, a child subtree with no block left to rebuild comes out exactly as it went in, whatever happens to its siblings. |
| Parties.RebuildComplete | pages/api/convert.js:34-66 | After the pass, every `RltdPties` at `NtryDtls/TxDtls/RltdPties` in the result has the target shape. |
| Parties.RebuildFixedPoint | pages/api/convert.js:34-66 | A subtree whose on-path blocks already have the target shape is left unchanged. |
| Parties.RebuildIdempotent | pages/api/convert.js:34-66 | Running the related-parties pass twice is running it once. |
| Agents.ClearAgents | pages/api/convert.js:69-72 | A `RltdAgts` on the path keeps its tag and attributes and ends with no children and no text. Any other element keeps tag, attributes, child tags and text children. |
| Agents.ClearComplete | pages/api/convert.js:69-72 | After the pass, every `RltdAgts` at `NtryDtls/TxDtls/RltdAgts` in the result is empty. |
| Agents.ClearFixedPoint | pages/api/convert.js:69-72 | A subtree whose on-path `RltdAgts` are already empty is left unchanged. |
| Agents.ClearAllAt | pages/api/convert.js:69-72 | The pass handles each child on its own: it keeps the number of children, and the `i`th result child is the `i`th child cleared. |
| Agents.ClearKeepsSibling | pages/api/convert.js:69-72 | Below an element that is not an on-path `RltdAgts`, a child subtree with no `RltdAgts` left to clear comes out exactly as it went in, whatever happens to its siblings. |
| Agents.ClearIdempotent | pages/api/convert.js:69-72 | Running the related-agents pass twice is running it once. |
| Agents.ClearCreatesNothing | pages/api/convert.js:69-72 | For every tag, the pass never increases the number of elements with that tag. In particular no `RltdAgts` is created. |
| Converter.Convert | pages/api/convert.js:12-75 | The converted root keeps its tag and carries the three declarations; every other attribute except `Ccy` is kept. No nested amount is left anywhere. Every on-path `RltdPties` has the target shape and every on-path `RltdAgts` is empty. Unless the root is itself a nested amount, it keeps the kinds and tags of its children and its text children. |
| Converter.ConvertFixedPoint | pages/api/convert.js:12-75 | A document that already carries the three declarations, has no nested amount, no on-path `RltdPties` of another shape and no non-empty on-path `RltdAgts` is returned unchanged. |
| Converter.ConvertKeepsChild | pages/api/convert.js:12-75 | A child of the root whose subtree has nothing for any pass to rewrite comes out of the conversion exactly as it went in, whatever happens to its siblings. |
| Converter.ConvertIdempotent | pages/api/convert.js:12-75 | Converting a converted document changes nothing. |
| Converter.RebuildKeepsAmounts | pages/api/convert.js:23-66 | The related-parties pass introduces no nested amount. |
| Converter.BlockHasNoAmounts | pages/api/convert.js:43-63 | A built related-parties block holds no nested amount. |
| Converter.ClearKeepsAmounts | pages/api/convert.js:69-72 | The related-agents pass introduces no nested amount. |
| Converter.ClearKeepsParties | pages/api/convert.js:34-72 | The related-agents pass keeps every rebuilt related-parties block of the target shape. |
| Converter.ClearKeepsBlock | pages/api/convert.js:43-72 | The related-agents pass leaves a block of the target shape as it is. |
| Converter.ClearKeepsBuiltBlock | pages/api/convert.js:43-72 | The related-agents pass leaves a built block as it is. |

## Left out

- XML parsing and serialisation with `xmldom` (pages/api/convert.js:5, 13, 74). The model starts from and ends with the element tree. Comments, processing instructions and CDATA sections are not modelled; text nodes stand for all character data.
- The `xpath` library (pages/api/convert.js:6, 14). Its selections are replaced by the explicit traversals above. The model assumes that results come back in document order, which is what the loops rely on.
- Namespaces. Element namespace URIs are reduced to tag names, and every element of the input is taken to be in the 001.04 namespace that the selections use. Created elements, which are in the 001.08 namespace, are never selected again by a later pass: the amount pass runs before the related-parties pass, and a rebuilt block holds no `RltdAgts`.
- AmountStepAsWritten: `removeChild` is modelled by the DOM Standard, not by the `xmldom` library the converter loads (pages/api/convert.js:5). The library's code is not part of this model, so the as-written outcome holds only for a DOM that follows the standard.
- UpdateNamespace: `setAttributeNS` on line 20 matches an existing attribute by namespace and local name. The model matches by the qualified name `xsi:schemaLocation`.
- Xml.GetAttr returns the first attribute with a name. XML well-formedness makes names unique, and `setAttribute` keeps them unique (Xml.SetAttrKeepsUnique).
- Node identity. The tree is a value. A replaced or cleared subtree is not revisited, which matches the source: a later match inside it is detached from the document by then and has no effect on the output.
- The corrected amount rewrite (NormalizeAmounts) leaves out the `removeChild` call on line 29 and models the evidently intended end state. The as-written behaviour is under Findings.
- The command-line wrapper (pages/api/convert.js:77-88): argument handling, file I/O and console output.
- The upload page (pages/index.js), which is browser UI and network glue.
- Behaviours the converter does not have, so none are modelled: reordering fields at the statement, entry and transaction-detail levels (the rebuilt related-parties block is always `Cdtr` then `CdtrAcct`); merging remittance information; synthesising `AmtDtls`; fallback text for additional information; inserting a missing `RltdAgts`; and typed errors such as `MalformedAmount` or `MissingStatement`.
- A policy that an explicit creditor wins over a debtor. The converter takes the first `Nm`, `AdrLine` and `IBAN` anywhere below the old block, so a debtor's data that comes first ends up in `Cdtr` and `CdtrAcct` (Parties.ScenarioDebtorAsCreditor). The model follows the code here.

## Findings

| source | as written | input that shows it | evidently intended | confidence | as-written member | corrected member |
|---|---|---|---|---|---|---|
| pages/api/convert.js:28-29 | Line 28 assigns `textContent`, which removes every child of the amount, the `Ccy` element included. Line 29 then calls `amt.removeChild(currency)` on a node that is no longer a child. The pre-remove step of section 4.2.3 of the DOM Standard throws a NotFoundError there, so the first nested amount aborts the conversion. | `<Amt>9.00<Ccy>CHF</Ccy></Amt>` | `<Amt Ccy="CHF">9.00</Amt>`: the `Ccy` child is already gone after line 28, so line 29 should not be there. | not executed; medium. The outcome follows the DOM Standard. A DOM library that skips the parent check would behave differently, and the library's own code is not part of this model. | Amounts.AmountStepAsWritten, Amounts.ScenarioNestedAmountAsWritten | Amounts.MoveCurrency, Amounts.ScenarioNestedAmount |

=== FILE: agents.dfy ===
/** Pass 4 of the conversion: every `RltdAgts` element at XPath
    `NtryDtls/TxDtls/RltdAgts` loses all its children (elements and text),
    while the element itself, with its attributes, stays in place. */
module Agents {
  import opened Wrappers
  import opened Xml

  /** The related-agents pass over the subtree rooted at `e`, where `p` and
      `g` are the tags of `e`'s parent and grandparent. Every element keeps
      its tag and attributes; one at `NtryDtls/TxDtls/RltdAgts` ends with no
      children, every other keeps the number, kind and tags of its children
      and its text children unchanged. */
  function ClearAgents(e: Element, p: Option<string>, g: Option<string>): (r: Element)
    ensures r.tag == e.tag && r.attrs == e.attrs
    ensures UnderTxDtls(p, g) && e.tag == "RltdAgts" ==> r.children == [] && TextContent(r) == ""
    ensures !(UnderTxDtls(p, g) && e.tag == "RltdAgts") ==>
      && TagsOf(r.children) == TagsOf(e.children)
      && forall i :: 0 <= i < |e.children| && e.children[i].Text? ==> r.children[i] == e.children[i]
    decreases e
  {
    if UnderTxDtls(p, g) && e.tag == "RltdAgts" then e.(children := [])
    else e.(children := ClearAll(e.children, Some(e.tag), p))
  }

  function ClearAll(ns: seq<Node>, p: Option<string>, g: Option<string>): (rs: seq<Node>)
    ensures TagsOf(rs) == TagsOf(ns)
    ensures forall i :: 0 <= i < |ns| && ns[i].Text? ==> rs[i] == ns[i]
    decreases ns
  {
    if ns == [] then [] else [ClearNode(ns[0], p, g)] + ClearAll(ns[1..], p, g)
  }

  function ClearNode(n: Node, p: Option<string>, g: Option<string>): (r: Node)
    ensures NodeTag(r) == NodeTag(n)
    ensures n.Text? ==> r == n
    decreases n
  {
    match n
    case Text(_) => n
    case Elem(c) => Elem(ClearAgents(c, p, g))
  }

  /** Every located `RltdAgts` at `NtryDtls/TxDtls/RltdAgts` has no children. */
  predicate AgentsCleared(ls: seq<Located>) {
    forall l :: l in ls && OnTxPath(l, "RltdAgts") ==> l.elem.children == []
  }

  /** Every related-agents element on the path is emptied. */
  lemma {:induction false} ClearComplete(e: Element, p: Option<string>, g: Option<string>)
    ensures AgentsCleared(Walk(ClearAgents(e, p, g), p, g))
    decreases e
  {
    var r := ClearAgents(e, p, g);
    if UnderTxDtls(p, g) && e.tag == "RltdAgts" {
      WalkOfLeaf(r, p, g);
    } else {
      ClearAllComplete(e.children, Some(e.tag), p);
    }
  }

  lemma {:induction false} ClearAllComplete(ns: seq<Node>, p: Option<string>, g: Option<string>)
    ensures AgentsCleared(WalkAll(ClearAll(ns, p, g), p, g))
    decreases ns
  {
    if ns != [] {
      var rs := ClearAll(ns, p, g);
      assert rs[0] == ClearNode(ns[0], p, g) && rs[1..] == ClearAll(ns[1..], p, g);
      ClearNodeComplete(ns[0], p, g);
      ClearAllComplete(ns[1..], p, g);
    }
  }

  lemma {:induction false} ClearNodeComplete(n: Node, p: Option<string>, g: Option<string>)
    ensures AgentsCleared(WalkNode(ClearNode(n, p, g), p, g))
    decreases n
  {
    match n
    case Text(_) =>
    case Elem(c) => ClearComplete(c, p, g);
  }

  /** A subtree whose related-agents elements on the path are already empty
      is a fixed point of the pass; in particular a subtree with no such
      element at all is left untouched. */
  lemma {:induction false} ClearFixedPoint(e: Element, p: Option<string>, g: Option<string>)
    requires AgentsCleared(Walk(e, p, g))
    ensures ClearAgents(e, p, g) == e
    decreases e
  {
    assert Located(g, p, e) in Walk(e, p, g);
    if !(UnderTxDtls(p, g) && e.tag == "RltdAgts") {
      ClearAllFixedPoint(e.children, Some(e.tag), p);
    }
  }

  lemma {:induction false} ClearAllFixedPoint(ns: seq<Node>, p: Option<string>, g: Option<string>)
    requires AgentsCleared(WalkAll(ns, p, g))
    ensures ClearAll(ns, p, g) == ns
    decreases ns
  {
    if ns != [] {
      var head, tail := WalkNode(ns[0], p, g), WalkAll(ns[1..], p, g);
      assert WalkAll(ns, p, g) == head + tail;
      assert AgentsCleared(head) && AgentsCleared(tail) by {
        assert forall l :: l in head || l in tail ==> l in head + tail;
      }
      ClearNodeFixedPoint(ns[0], p, g);
      ClearAllFixedPoint(ns[1..], p, g);
      assert ns == [ns[0]] + ns[1..];
    }
  }

  lemma {:induction false} ClearNodeFixedPoint(n: Node, p: Option<string>, g: Option<string>)
    requires AgentsCleared(WalkNode(n, p, g))
    ensures ClearNode(n, p, g) == n
    decreases n
  {
    match n
    case Text(_) =>
    case Elem(c) => ClearFixedPoint(c, p, g);
  }

  /** The pass maps each child on its own: the `i`th cleared child is the
      `i`th child cleared. */
  lemma {:induction false} ClearAllAt(ns: seq<Node>, p: Option<string>, g: Option<string>, i: nat)
    requires i < |ns|
    ensures |ClearAll(ns, p, g)| == |ns|
    ensures ClearAll(ns, p, g)[i] == ClearNode(ns[i], p, g)
    decreases i
  {
    if i > 0 {
      ClearAllAt(ns[1..], p, g, i - 1);
    }
  }

  /** Outside a related-agents block, a child subtree that holds no
      related-agents block still to clear comes out of the pass exactly as it
      went in, whatever happens to its siblings. */
  lemma ClearKeepsSibling(e: Element, p: Option<string>, g: Option<string>, i: nat)
    requires !(UnderTxDtls(p, g) && e.tag == "RltdAgts")
    requires i < |e.children|
    requires AgentsCleared(WalkNode(e.children[i], Some(e.tag), p))
    ensures |ClearAgents(e, p, g).children| == |e.children|
    ensures ClearAgents(e, p, g).children[i] == e.children[i]
  {
    ClearAllAt(e.children, Some(e.tag), p, i);
    ClearNodeFixedPoint(e.children[i], Some(e.tag), p);
  }

  /** Running the related-agents pass twice is running it once. */
  lemma ClearIdempotent(e: Element)
    ensures ClearAgents(ClearAgents(e, None, None), None, None) == ClearAgents(e, None, None)
  {
    ClearComplete(e, None, None);
    ClearFixedPoint(ClearAgents(e, None, None), None, None);
  }

  /** The pass only removes: no tag occurs more often afterwards, so in
      particular no `RltdAgts` is created where none existed. */
  lemma {:induction false} ClearCreatesNothing(e: Element, p: Option<string>, g: Option<string>, tag: string)
    ensures CountTagged(Walk(ClearAgents(e, p, g), p, g), tag) <= CountTagged(Walk(e, p, g), tag)
    decreases e
  {
    var r := ClearAgents(e, p, g);
    CountTaggedConcat([Located(g, p, r)], WalkAll(r.children, Some(r.tag), p), tag);
    CountTaggedConcat([Located(g, p, e)], WalkAll(e.children, Some(e.tag), p), tag);
    if !(UnderTxDtls(p, g) && e.tag == "RltdAgts") {
      ClearAllCreatesNothing(e.children, Some(e.tag), p, tag);
    }
  }

  lemma {:induction false} ClearAllCreatesNothing(ns: seq<Node>, p: Option<string>, g: Option<string>, tag: string)
    ensures CountTagged(WalkAll(ClearAll(ns, p, g), p, g), tag) <= CountTagged(WalkAll(ns, p, g), tag)
    decreases ns
  {
    if ns != [] {
      var rs := ClearAll(ns, p, g);
      assert rs[0] == ClearNode(ns[0], p, g) && rs[1..] == ClearAll(ns[1..], p, g);
      CountTaggedConcat(WalkNode(rs[0], p, g), WalkAll(rs[1..], p, g), tag);
      CountTaggedConcat(WalkNode(ns[0], p, g), WalkAll(ns[1..], p, g), tag);
      ClearNodeCreatesNothing(ns[0], p, g, tag);
      ClearAllCreatesNothing(ns[1..], p, g, tag);
    }
  }

  lemma {:induction false} ClearNodeCreatesNothing(n: Node, p: Option<string>, g: Option<string>, tag: string)
    ensures CountTagged(WalkNode(ClearNode(n, p, g), p, g), tag) <= CountTagged(WalkNode(n, p, g), tag)
    decreases n
  {
    match n
    case Text(_) =>
    case Elem(c) => ClearCreatesNothing(c, p, g, tag);
  }
}

=== FILE: amounts.dfy ===
/** Pass 2 of the conversion: every `Amt` element that has a direct `Ccy`
    child element is rewritten into the attribute form: the currency moves
    into a `Ccy` attribute and the element keeps only the amount text. */
module Amounts {
  import opened Wrappers
  import opened Strings
  import opened Xml

  /** An `Amt` element still in the nested form, i.e. with a `Ccy` child. */
  predicate Pending(e: Element) {
    e.tag == "Amt" && FirstChild(e.children, "Ccy").Some?
  }

  /** `./Ccy` then `[0]` and the `if` around it: an amount is rewritten
      exactly when it has at least one direct `Ccy` child element. */
  lemma PendingIff(e: Element)
    ensures Pending(e) <==>
      e.tag == "Amt" && exists i :: 0 <= i < |e.children| && NodeTag(e.children[i]) == Some("Ccy")
  {
    if e.tag == "Amt" && FirstChild(e.children, "Ccy").Some? {
      var i := FirstChild(e.children, "Ccy").value;
      assert NodeTag(e.children[i]) == Some("Ccy");
    }
  }

  /** The currency of a nested amount: the text of its first `Ccy` child. */
  function Currency(e: Element): (c: string)
    requires Pending(e)
    ensures exists i :: (
      && 0 <= i < |e.children| && e.children[i].Elem?
      && e.children[i].elem.tag == "Ccy" && c == TextContent(e.children[i].elem)
      && forall j :: 0 <= j < i ==> NodeTag(e.children[j]) != Some("Ccy"))
  {
    TextContent(e.children[FirstChild(e.children, "Ccy").value].elem)
  }

  /** The rewrite of one nested amount: the `Ccy` attribute is set (replacing
      any existing one) to the first `Ccy` child's text, and the element's
      content becomes its former text content with the first occurrence of
      that currency removed and the result trimmed. */
  function MoveCurrency(e: Element): (r: Element)
    requires Pending(e)
    ensures r.tag == "Amt"
    ensures GetAttr(r.attrs, "Ccy") == Some(Currency(e))
    ensures forall name :: name != "Ccy" ==> GetAttr(r.attrs, name) == GetAttr(e.attrs, name)
    ensures forall i :: 0 <= i < |r.children| ==> r.children[i].Text?
    ensures FirstChild(r.children, "Ccy").None?
    ensures TextContent(r) == Trim(ReplaceFirst(TextContent(e), Currency(e), ""))
    ensures Trimmed(TextContent(r))
  {
    var ccy := Currency(e);
    SetText(e.(attrs := SetAttr(e.attrs, "Ccy", ccy)), Trim(ReplaceFirst(TextContent(e), ccy, "")))
  }

  // ---------------------------------------------------------------------
  // The loop body as written, with the DOM's removeChild

  /** The outcome of a DOM mutation that may throw. */
  datatype Outcome = Done(value: Element) | NotFoundError

  /** DOM `removeChild`: the first child equal to `c` is removed; when `c` is
      not a child, the pre-remove step of section 4.2.3 of the DOM Standard
      throws a NotFoundError. Node identity is approximated by equality. */
  function RemoveChild(e: Element, c: Element): (r: Outcome)
    ensures r.NotFoundError? <==> Elem(c) !in e.children
    ensures r.Done? ==>
      && r.value.tag == e.tag && r.value.attrs == e.attrs
      && |r.value.children| == |e.children| - 1
      && exists i :: 0 <= i < |e.children| && e.children[i] == Elem(c)
           && r.value.children == e.children[..i] + e.children[i + 1..]
  {
    match FirstIndex(e.children, Elem(c))
    case None => NotFoundError
    case Some(i) => Done(e.(children := e.children[..i] + e.children[i + 1..]))
  }

  /** One iteration of the amount loop exactly as written: the attribute is
      set, `textContent` is assigned (which already detaches every child,
      the `Ccy` element included), and then the `Ccy` element is removed
      from the amount once more. Under the DOM Standard the last step always
      throws, so the rewrite can never complete; amounts without a `Ccy`
      child pass. */
  function AmountStepAsWritten(e: Element): (r: Outcome)
    ensures r == NotFoundError <==> Pending(e)
    ensures !Pending(e) ==> r == Done(e)
  {
    if !Pending(e) then Done(e)
    else
      var currency := e.children[FirstChild(e.children, "Ccy").value].elem;
      var ccy := TextContent(currency);
      var written := SetText(e.(attrs := SetAttr(e.attrs, "Ccy", ccy)), Trim(ReplaceFirst(TextContent(e), ccy, "")));
      RemoveChild(written, currency)
  }

  /** `<Amt>9.00<Ccy>CHF</Ccy></Amt>` as written: the conversion throws where
      the corrected rewrite (ScenarioNestedAmount) yields
      `<Amt Ccy="CHF">9.00</Amt>`. */
  lemma ScenarioNestedAmountAsWritten()
    ensures AmountStepAsWritten(ScenarioAmount()) == NotFoundError
  {
    ScenarioAmountParts();
  }

  /** The amount pass over a subtree, visiting every `Amt` at any depth in
      document order. A rewritten amount's former children are discarded, so
      nothing below it is visited. Every other element keeps its tag, its
      attributes, and the number, kind and tags of its children. */
  function NormalizeAmounts(e: Element): (r: Element)
    ensures r.tag == e.tag
    ensures !Pending(r)
    ensures Pending(e) ==> r == MoveCurrency(e)
    ensures !Pending(e) ==> r.attrs == e.attrs && TagsOf(r.children) == TagsOf(e.children)
    ensures !Pending(e) ==> forall i :: 0 <= i < |e.children| && e.children[i].Text? ==> r.children[i] == e.children[i]
    decreases e
  {
    if Pending(e) then MoveCurrency(e)
    else e.(children := NormalizeAll(e.children))
  }

  function NormalizeAll(ns: seq<Node>): (rs: seq<Node>)
    ensures TagsOf(rs) == TagsOf(ns)
    ensures forall i :: 0 <= i < |ns| && ns[i].Text? ==> rs[i] == ns[i]
    decreases ns
  {
    if ns == [] then [] else [NormalizeNode(ns[0])] + NormalizeAll(ns[1..])
  }

  function NormalizeNode(n: Node): (r: Node)
    ensures NodeTag(r) == NodeTag(n)
    ensures n.Text? ==> r == n
    decreases n
  {
    match n
    case Text(_) => n
    case Elem(c) => Elem(NormalizeAmounts(c))
  }

  /** The pass touches no attribute of an element other than `Ccy`. */
  lemma NormalizeKeepsAttr(e: Element, name: string)
    requires name != "Ccy"
    ensures GetAttr(NormalizeAmounts(e).attrs, name) == GetAttr(e.attrs, name)
  {
  }

  /** No element of the walk is an amount in the nested form. */
  predicate NoPendingAmounts(ls: seq<Located>) {
    forall l :: l in ls ==> !Pending(l.elem)
  }

  /** Whether an element is a nested amount depends only on its tag and the
      tags of its children. */
  lemma PendingByShape(a: Element, b: Element)
    requires a.tag == b.tag && TagsOf(a.children) == TagsOf(b.children)
    ensures Pending(a) == Pending(b)
  {
  }

  /** Every `Amt` is visited: after the pass no nested amount is left
      anywhere in the subtree. */
  lemma {:induction false} NormalizeLeavesNoPending(e: Element, p: Option<string>, g: Option<string>)
    ensures NoPendingAmounts(Walk(NormalizeAmounts(e), p, g))
    decreases e
  {
    var r := NormalizeAmounts(e);
    if Pending(e) {
      WalkAllOfText(r.children, Some(r.tag), p);
      assert Walk(r, p, g) == [Located(g, p, r)];
    } else {
      NormalizeAllLeavesNoPending(e.children, Some(e.tag), p);
    }
  }

  lemma {:induction false} NormalizeAllLeavesNoPending(ns: seq<Node>, p: Option<string>, g: Option<string>)
    ensures NoPendingAmounts(WalkAll(NormalizeAll(ns), p, g))
    decreases ns
  {
    if ns != [] {
      var rs := NormalizeAll(ns);
      assert rs[0] == NormalizeNode(ns[0]) && rs[1..] == NormalizeAll(ns[1..]);
      NormalizeNodeLeavesNoPending(ns[0], p, g);
      NormalizeAllLeavesNoPending(ns[1..], p, g);
    }
  }

  lemma {:induction false} NormalizeNodeLeavesNoPending(n: Node, p: Option<string>, g: Option<string>)
    ensures NoPendingAmounts(WalkNode(NormalizeNode(n), p, g))
    decreases n
  {
    match n
    case Text(_) =>
    case Elem(c) => NormalizeLeavesNoPending(c, p, g);
  }

  /** A subtree without nested amounts is a fixed point of the pass. */
  lemma {:induction false} NormalizeFixedPoint(e: Element, p: Option<string>, g: Option<string>)
    requires NoPendingAmounts(Walk(e, p, g))
    ensures NormalizeAmounts(e) == e
    decreases e
  {
    assert Located(g, p, e) in Walk(e, p, g);
    NormalizeAllFixedPoint(e.children, Some(e.tag), p);
  }

  lemma {:induction false} NormalizeAllFixedPoint(ns: seq<Node>, p: Option<string>, g: Option<string>)
    requires NoPendingAmounts(WalkAll(ns, p, g))
    ensures NormalizeAll(ns) == ns
    decreases ns
  {
    if ns != [] {
      var head, tail := WalkNode(ns[0], p, g), WalkAll(ns[1..], p, g);
      assert WalkAll(ns, p, g) == head + tail;
      assert NoPendingAmounts(head) && NoPendingAmounts(tail) by {
        assert forall l :: l in head || l in tail ==> l in head + tail;
      }
      NormalizeNodeFixedPoint(ns[0], p, g);
      NormalizeAllFixedPoint(ns[1..], p, g);
      assert ns == [ns[0]] + ns[1..];
    }
  }

  lemma {:induction false} NormalizeNodeFixedPoint(n: Node, p: Option<string>, g: Option<string>)
    requires NoPendingAmounts(WalkNode(n, p, g))
    ensures NormalizeNode(n) == n
    decreases n
  {
    match n
    case Text(_) =>
    case Elem(c) => NormalizeFixedPoint(c, p, g);
  }

  /** The pass maps each child on its own: the `i`th normalised child is
      the `i`th child normalised. */
  lemma {:induction false} NormalizeAllAt(ns: seq<Node>, i: nat)
    requires i < |ns|
    ensures |NormalizeAll(ns)| == |ns|
    ensures NormalizeAll(ns)[i] == NormalizeNode(ns[i])
    decreases i
  {
    if i > 0 {
      NormalizeAllAt(ns[1..], i - 1);
    }
  }

  /** Outside a nested amount, a child subtree that holds no nested amount
      comes out of the pass exactly as it went in, whatever happens to its
      siblings. */
  lemma NormalizeKeepsSibling(e: Element, p: Option<string>, g: Option<string>, i: nat)
    requires !Pending(e)
    requires i < |e.children|
    requires NoPendingAmounts(WalkNode(e.children[i], Some(e.tag), p))
    ensures |NormalizeAmounts(e).children| == |e.children|
    ensures NormalizeAmounts(e).children[i] == e.children[i]
  {
    NormalizeAllAt(e.children, i);
    NormalizeNodeFixedPoint(e.children[i], Some(e.tag), p);
  }

  /** Running the amount pass twice is running it once. */
  lemma NormalizeIdempotent(e: Element)
    ensures NormalizeAmounts(NormalizeAmounts(e)) == NormalizeAmounts(e)
  {
    NormalizeLeavesNoPending(e, None, None);
    NormalizeFixedPoint(NormalizeAmounts(e), None, None);
  }

  /** For the nested form the converter targets — the amount text, then the
      first `Ccy` child, then anything else — the text removed is that
      child's own text, provided the currency's first character does not
      appear in the text before it (as for a letter currency code after a
      decimal amount). The result is the surrounding text, trimmed. */
  lemma NestedAmountText(e: Element, k: nat)
    requires e.tag == "Amt" && FirstChild(e.children, "Ccy") == Some(k)
    requires Currency(e) != [] && Currency(e)[0] !in ContentOf(e.children[..k])
    ensures TextContent(MoveCurrency(e)) == Trim(ContentOf(e.children[..k]) + ContentOf(e.children[k + 1..]))
  {
    ContentOfAround(e.children, k);
    RemoveFirstAfterPrefix(ContentOf(e.children[..k]), Currency(e), ContentOf(e.children[k + 1..]));
  }

  /** The nested amount `<Amt>9.00<Ccy>CHF</Ccy></Amt>` becomes
      `<Amt Ccy="CHF">9.00</Amt>`. */
  lemma ScenarioNestedAmount()
    ensures NormalizeAmounts(ScenarioAmount()) == Element("Amt", [Attr("Ccy", "CHF")], [Text("9.00")])
  {
    var amt := ScenarioAmount();
    var text := Trim(ReplaceFirst(TextContent(amt), "CHF", ""));
    assert Pending(amt) && Currency(amt) == "CHF" && text == "9.00" by {
      ScenarioAmountParts();
      ScenarioAmountTrimmed();
    }
    var attrs := SetAttr([], "Ccy", "CHF");
    assert attrs == [Attr("Ccy", "CHF")];
    assert MoveCurrency(amt) == SetText(amt.(attrs := attrs), "9.00");
  }

  function ScenarioAmount(): Element {
    Element("Amt", [], [Text("9.00"), Elem(Element("Ccy", [], [Text("CHF")]))])
  }

  lemma ScenarioAmountParts()
    ensures Pending(ScenarioAmount()) && Currency(ScenarioAmount()) == "CHF"
    ensures Trim(ReplaceFirst(TextContent(ScenarioAmount()), "CHF", "")) == Trim("9.00")
  {
    var amt := ScenarioAmount();
    assert FirstChild(amt.children, "Ccy") == Some(1) by {
      assert TagsOf(amt.children) == [None, Some("Ccy")];
    }
    assert Currency(amt) == "CHF" by {
      assert ContentOf([Text("CHF")]) == "CHF" + ContentOf([]);
    }
    assert ContentOf(amt.children[..1]) == "9.00" by {
      assert amt.children[..1] == [Text("9.00")];
      assert ContentOf([Text("9.00")]) == "9.00" + ContentOf([]);
    }
    assert ContentOf(amt.children[2..]) == "" by {
      assert amt.children[2..] == [];
    }
    NestedAmountText(amt, 1);
    assert "9.00" + "" == "9.00";
  }

  lemma ScenarioAmountTrimmed()
    ensures Trim("9.00") == "9.00"
  {
    TrimOfTrimmed("9.00");
  }

  /** An amount already in the attribute form is left as it is, as is
      every other element without a nested amount below it. */
  lemma ScenarioNormalizedAmount(value: string, ccy: string)
    ensures var amt := Element("Amt", [Attr("Ccy", ccy)], [Text(value)]);
      NormalizeAmounts(amt) == amt
  {
    var amt := Element("Amt", [Attr("Ccy", ccy)], [Text(value)]);
    WalkAllOfText(amt.children, Some("Amt"), None);
    assert Walk(amt, None, None) == [Located(None, None, amt)];
    NormalizeFixedPoint(amt, None, None);
  }
}

=== FILE: convert.dfy ===
/** The conversion of a camt.053.001.04 document into camt.053.001.08: the
    four passes applied in order to the document element. */
module Converter {
  import opened Wrappers
  import opened Xml
  import opened Namespaces
  import opened Amounts
  import opened Parties
  import opened Agents

  /** The converted document element. Afterwards the root carries the
      001.08 declarations; no `Amt` anywhere is left with a `Ccy` child;
      every `RltdPties` at `NtryDtls/TxDtls/RltdPties` has the target shape;
      every `RltdAgts` at `NtryDtls/TxDtls/RltdAgts` is empty. The root keeps
      its tag and every other attribute (except `Ccy`, which the amount pass
      sets should the root itself be a nested amount). */
  function Convert(root: Element): (r: Element)
    ensures r.tag == root.tag
    ensures GetAttr(r.attrs, "xmlns") == Some(NewNamespace)
    ensures GetAttr(r.attrs, "xmlns:xsi") == Some(XsiNamespace)
    ensures GetAttr(r.attrs, "xsi:schemaLocation") == Some(SchemaLocation)
    ensures forall name :: !IsRootDeclaration(name) && name != "Ccy" ==>
      GetAttr(r.attrs, name) == GetAttr(root.attrs, name)
    ensures NoPendingAmounts(Walk(r, None, None))
    ensures PartiesRebuilt(Walk(r, None, None))
    ensures AgentsCleared(Walk(r, None, None))
    ensures !Pending(root) ==>
      && TagsOf(r.children) == TagsOf(root.children)
      && forall i :: 0 <= i < |root.children| && root.children[i].Text? ==> r.children[i] == root.children[i]
  {
    var declared := UpdateNamespace(root);
    var amounts := NormalizeAmounts(declared);
    var parties := RebuildParties(amounts, None, None);
    var agents := ClearAgents(parties, None, None);
    assert agents.attrs == amounts.attrs;
    NormalizeKeepsAttr(declared, "xmlns");
    NormalizeKeepsAttr(declared, "xmlns:xsi");
    NormalizeKeepsAttr(declared, "xsi:schemaLocation");
    assert forall name :: name != "Ccy" ==> GetAttr(amounts.attrs, name) == GetAttr(declared.attrs, name) by {
      forall name | name != "Ccy" {
        NormalizeKeepsAttr(declared, name);
      }
    }
    assert NoPendingAmounts(Walk(agents, None, None)) by {
      NormalizeLeavesNoPending(declared, None, None);
      RebuildKeepsAmounts(amounts, None, None);
      ClearKeepsAmounts(parties, None, None);
    }
    assert PartiesRebuilt(Walk(agents, None, None)) by {
      RebuildComplete(amounts, None, None);
      ClearKeepsParties(parties, None, None);
    }
    assert AgentsCleared(Walk(agents, None, None)) by {
      ClearComplete(parties, None, None);
    }
    PassesKeepChildren(declared);
    agents
  }

  /** Below a document element that is not itself a nested amount, the last
      three passes keep the kinds and tags of its children and its text. */
  lemma PassesKeepChildren(x: Element)
    ensures var r := ClearAgents(RebuildParties(NormalizeAmounts(x), None, None), None, None);
      !Pending(x) ==>
        && TagsOf(r.children) == TagsOf(x.children)
        && forall i :: 0 <= i < |x.children| && x.children[i].Text? ==> r.children[i] == x.children[i]
  {
  }

  /** A document that already carries the 001.08 declarations and has
      nothing left for any of the passes to rewrite is returned unchanged. */
  lemma ConvertFixedPoint(root: Element)
    requires GetAttr(root.attrs, "xmlns") == Some(NewNamespace)
    requires GetAttr(root.attrs, "xmlns:xsi") == Some(XsiNamespace)
    requires GetAttr(root.attrs, "xsi:schemaLocation") == Some(SchemaLocation)
    requires NoPendingAmounts(Walk(root, None, None))
    requires PartiesRebuilt(Walk(root, None, None))
    requires AgentsCleared(Walk(root, None, None))
    ensures Convert(root) == root
  {
    UpdateNamespaceFixedPoint(root);
    NormalizeFixedPoint(root, None, None);
    RebuildFixedPoint(root, None, None);
    ClearFixedPoint(root, None, None);
  }

  /** A child of the document element whose subtree has nothing for any of
      the passes to rewrite comes out of the conversion exactly as it went
      in, whatever the conversion does to its siblings. */
  lemma ConvertKeepsChild(root: Element, i: nat)
    requires !Pending(root)
    requires i < |root.children|
    requires NoPendingAmounts(WalkNode(root.children[i], Some(root.tag), None))
    requires PartiesRebuilt(WalkNode(root.children[i], Some(root.tag), None))
    requires AgentsCleared(WalkNode(root.children[i], Some(root.tag), None))
    ensures |Convert(root).children| == |root.children|
    ensures Convert(root).children[i] == root.children[i]
  {
    var declared := UpdateNamespace(root);
    var amounts := NormalizeAmounts(declared);
    var parties := RebuildParties(amounts, None, None);
    NormalizeKeepsSibling(declared, None, None, i);
    RebuildKeepsSibling(amounts, None, None, i);
    ClearKeepsSibling(parties, None, None, i);
  }

  /** Converting a converted document changes nothing. */
  lemma ConvertIdempotent(root: Element)
    ensures Convert(Convert(root)) == Convert(root)
  {
    var r := Convert(root);
    UpdateNamespaceFixedPoint(r);
    NormalizeFixedPoint(r, None, None);
    RebuildFixedPoint(r, None, None);
    ClearFixedPoint(r, None, None);
  }

  // ---------------------------------------------------------------------
  // Later passes keep what earlier passes established

  /** The related-parties pass introduces no nested amount. */
  lemma {:induction false} RebuildKeepsAmounts(e: Element, p: Option<string>, g: Option<string>)
    requires NoPendingAmounts(Walk(e, p, g))
    ensures NoPendingAmounts(Walk(RebuildParties(e, p, g), p, g))
    decreases e
  {
    var r := RebuildParties(e, p, g);
    if UnderTxDtls(p, g) && e.tag == "RltdPties" {
      BlockHasNoAmounts(ReadParties(e), p, g);
    } else {
      assert Located(g, p, e) in Walk(e, p, g);
      PendingByShape(e, r);
      RebuildAllKeepsAmounts(e.children, Some(e.tag), p);
    }
  }

  /** A rebuilt related-parties block holds no `Amt` at all. */
  lemma BlockHasNoAmounts(v: PartyValues, p: Option<string>, g: Option<string>)
    ensures NoPendingAmounts(Walk(PartiesBlock(v), p, g))
  {
    assert !IsBlockTag("Amt");
    BlockTags(v, p, g, "Amt");
  }

  lemma {:induction false} RebuildAllKeepsAmounts(ns: seq<Node>, p: Option<string>, g: Option<string>)
    requires NoPendingAmounts(WalkAll(ns, p, g))
    ensures NoPendingAmounts(WalkAll(RebuildAll(ns, p, g), p, g))
    decreases ns
  {
    if ns != [] {
      var rs := RebuildAll(ns, p, g);
      assert rs[0] == RebuildNode(ns[0], p, g) && rs[1..] == RebuildAll(ns[1..], p, g);
      RebuildNodeKeepsAmounts(ns[0], p, g);
      RebuildAllKeepsAmounts(ns[1..], p, g);
    }
  }
  lemma {:induction false} RebuildNodeKeepsAmounts(n: Node, p: Option<string>, g: Option<string>)
    requires NoPendingAmounts(WalkNode(n, p, g))
    ensures NoPendingAmounts(WalkNode(RebuildNode(n, p, g), p, g))
    decreases n
  {
    match n
    case Text(_) =>
    case Elem(c) => RebuildKeepsAmounts(c, p, g);
  }


  /** The related-agents pass introduces no nested amount. */
  lemma {:induction false} ClearKeepsAmounts(e: Element, p: Option<string>, g: Option<string>)
    requires NoPendingAmounts(Walk(e, p, g))
    ensures NoPendingAmounts(Walk(ClearAgents(e, p, g), p, g))
    decreases e
  {
    var r := ClearAgents(e, p, g);
    if UnderTxDtls(p, g) && e.tag == "RltdAgts" {
      WalkOfLeaf(r, p, g);
    } else {
      assert Located(g, p, e) in Walk(e, p, g);
      PendingByShape(e, r);
      ClearAllKeepsAmounts(e.children, Some(e.tag), p);
    }
  }

  lemma {:induction false} ClearAllKeepsAmounts(ns: seq<Node>, p: Option<string>, g: Option<string>)
    requires NoPendingAmounts(WalkAll(ns, p, g))
    ensures NoPendingAmounts(WalkAll(ClearAll(ns, p, g), p, g))
    decreases ns
  {
    if ns != [] {
      var rs := ClearAll(ns, p, g);
      assert rs[0] == ClearNode(ns[0], p, g) && rs[1..] == ClearAll(ns[1..], p, g);
      ClearNodeKeepsAmounts(ns[0], p, g);
      ClearAllKeepsAmounts(ns[1..], p, g);
    }
  }
  lemma {:induction false} ClearNodeKeepsAmounts(n: Node, p: Option<string>, g: Option<string>)
    requires NoPendingAmounts(WalkNode(n, p, g))
    ensures NoPendingAmounts(WalkNode(ClearNode(n, p, g), p, g))
    decreases n
  {
    match n
    case Text(_) =>
    case Elem(c) => ClearKeepsAmounts(c, p, g);
  }


  /** The related-agents pass leaves rebuilt related-parties blocks alone. */
  lemma {:induction false} ClearKeepsParties(e: Element, p: Option<string>, g: Option<string>)
    requires PartiesRebuilt(Walk(e, p, g))
    ensures PartiesRebuilt(Walk(ClearAgents(e, p, g), p, g))
    decreases e
  {
    var r := ClearAgents(e, p, g);
    if UnderTxDtls(p, g) && e.tag == "RltdAgts" {
      WalkOfLeaf(r, p, g);
    } else if UnderTxDtls(p, g) && e.tag == "RltdPties" {
      assert Located(g, p, e) in Walk(e, p, g);
      ClearKeepsBlock(e, p, g);
    } else {
      ClearAllKeepsParties(e.children, Some(e.tag), p);
    }
  }

  /** A block of the target shape holds no related-agents element, so the
      related-agents pass leaves it as it is. */
  lemma ClearKeepsBlock(x: Element, p: Option<string>, g: Option<string>)
    requires HasTargetShape(x)
    ensures ClearAgents(x, p, g) == x
  {
    ShapeIsBlock(x);
    ClearKeepsBuiltBlock(ReadParties(x), p, g);
  }

  lemma ClearKeepsBuiltBlock(v: PartyValues, p: Option<string>, g: Option<string>)
    ensures ClearAgents(PartiesBlock(v), p, g) == PartiesBlock(v)
  {
    var w := Walk(PartiesBlock(v), p, g);
    assert AgentsCleared(w) by {
      assert !IsBlockTag("RltdAgts");
      BlockTags(v, p, g, "RltdAgts");
    }
    ClearFixedPoint(PartiesBlock(v), p, g);
  }

  lemma {:induction false} ClearAllKeepsParties(ns: seq<Node>, p: Option<string>, g: Option<string>)
    requires PartiesRebuilt(WalkAll(ns, p, g))
    ensures PartiesRebuilt(WalkAll(ClearAll(ns, p, g), p, g))
    decreases ns
  {
    if ns != [] {
      var rs := ClearAll(ns, p, g);
      assert rs[0] == ClearNode(ns[0], p, g) && rs[1..] == ClearAll(ns[1..], p, g);
      ClearNodeKeepsParties(ns[0], p, g);
      ClearAllKeepsParties(ns[1..], p, g);
    }
  }
  lemma {:induction false} ClearNodeKeepsParties(n: Node, p: Option<string>, g: Option<string>)
    requires PartiesRebuilt(WalkNode(n, p, g))
    ensures PartiesRebuilt(WalkNode(ClearNode(n, p, g), p, g))
    decreases n
  {
    match n
    case Text(_) =>
    case Elem(c) => ClearKeepsParties(c, p, g);
  }

}

=== FILE: namespaces.dfy ===
/** Pass 1 of the conversion: the document element is re-declared in the
    camt.053.001.08 namespace, with the XML Schema instance namespace and a
    schema-location hint. */
module Namespaces {
  import opened Wrappers
  import opened Xml

  const NewNamespace: string := "urn:iso:std:iso:20022:tech:xsd:camt.053.001.08"
  const XsiNamespace: string := "http://www.w3.org/2001/XMLSchema-instance"
  const SchemaLocation: string := NewNamespace + " camt.053.001.08.xsd"

  /** The three root attributes the pass writes. */
  predicate IsRootDeclaration(name: string) {
    name == "xmlns" || name == "xmlns:xsi" || name == "xsi:schemaLocation"
  }

  /** Sets `xmlns`, `xmlns:xsi` and `xsi:schemaLocation` on the root, in that
      order, with DOM `setAttribute` semantics. */
  function UpdateNamespace(root: Element): (r: Element)
    ensures r.tag == root.tag && r.children == root.children
    ensures GetAttr(r.attrs, "xmlns") == Some(NewNamespace)
    ensures GetAttr(r.attrs, "xmlns:xsi") == Some(XsiNamespace)
    ensures GetAttr(r.attrs, "xsi:schemaLocation") == Some(SchemaLocation)
    ensures forall name :: !IsRootDeclaration(name) ==> GetAttr(r.attrs, name) == GetAttr(root.attrs, name)
    ensures |root.attrs| <= |r.attrs| <= |root.attrs| + 3
    ensures forall i :: 0 <= i < |root.attrs| ==> r.attrs[i].name == root.attrs[i].name
    ensures UniqueNames(root.attrs) ==> UniqueNames(r.attrs)
  {
    var a1 := SetAttr(root.attrs, "xmlns", NewNamespace);
    var a2 := SetAttr(a1, "xmlns:xsi", XsiNamespace);
    var a3 := SetAttr(a2, "xsi:schemaLocation", SchemaLocation);
    assert UniqueNames(root.attrs) ==> UniqueNames(a3) by {
      if UniqueNames(root.attrs) {
        SetAttrKeepsUnique(root.attrs, "xmlns", NewNamespace);
        SetAttrKeepsUnique(a1, "xmlns:xsi", XsiNamespace);
        SetAttrKeepsUnique(a2, "xsi:schemaLocation", SchemaLocation);
      }
    }
    root.(attrs := a3)
  }

  /** A root that already carries the three declarations is left as it is. */
  lemma UpdateNamespaceFixedPoint(root: Element)
    requires GetAttr(root.attrs, "xmlns") == Some(NewNamespace)
    requires GetAttr(root.attrs, "xmlns:xsi") == Some(XsiNamespace)
    requires GetAttr(root.attrs, "xsi:schemaLocation") == Some(SchemaLocation)
    ensures UpdateNamespace(root) == root
  {
    SetAttrUnchanged(root.attrs, "xmlns", NewNamespace);
    SetAttrUnchanged(root.attrs, "xmlns:xsi", XsiNamespace);
    SetAttrUnchanged(root.attrs, "xsi:schemaLocation", SchemaLocation);
  }

  /** Rewriting the root twice is rewriting it once. */
  lemma UpdateNamespaceIdempotent(root: Element)
    ensures UpdateNamespace(UpdateNamespace(root)) == UpdateNamespace(root)
  {
    UpdateNamespaceFixedPoint(UpdateNamespace(root));
  }
}

=== FILE: parties.dfy ===
/** Pass 3 of the conversion: every `RltdPties` element at XPath
    `NtryDtls/TxDtls/RltdPties` is replaced, in place, by a freshly built
    block of fixed shape

      RltdPties
        Cdtr / Pty / (Nm, PstlAdr / AdrLine)
        CdtrAcct / Id / IBAN

    whose three values are read from the old block, with placeholders where
    the old block has no usable value. */
module Parties {
  import opened Wrappers
  import opened Xml

  /** Placeholder name and address line ("unknown"). */
  const UnknownName: string := "Unbekannt"
  const UnknownAddress: string := "Unbekannt"
  /** Placeholder account number. */
  const PlaceholderIban: string := "CH0000000000000000000"

  /** The three values the rebuilt block carries. */
  datatype PartyValues = PartyValues(name: string, adrLine: string, iban: string)

  predicate NonEmptyValues(v: PartyValues) {
    v.name != "" && v.adrLine != "" && v.iban != ""
  }

  /** `(.//tag)[0]?.textContent || fallback`: the text of the first `tag`
      descendant of `source`, unless there is none or its text is empty, in which
      case `fallback`. The contract states it against document order. */
  function FirstTextOr(source: Element, tag: string, fallback: string): (r: string)
    ensures fallback != "" ==> r != ""
    ensures match FirstTagged(Walk(source, None, None)[1..], tag)
      case Some(x) => r == (if TextContent(x) != "" then TextContent(x) else fallback)
      case None => r == fallback
  {
    FindDescendantInDocumentOrder(source, tag, None, None);
    match FindDescendant(source, tag)
    case Some(x) => if TextContent(x) != "" then TextContent(x) else fallback
    case None => fallback
  }

  /** The values the converter reads from a related-parties block. */
  function ReadParties(source: Element): (v: PartyValues)
    ensures NonEmptyValues(v)
  {
    PartyValues(
      FirstTextOr(source, "Nm", UnknownName),
      FirstTextOr(source, "AdrLine", UnknownAddress),
      FirstTextOr(source, "IBAN", PlaceholderIban))
  }

  /** A related-parties block that names only a debtor: the debtor's name
      and account number are the first `Nm` and `IBAN` below the block, so
      they are what the rebuilt block carries as the creditor's. */
  function DebtorOnlyBlock(): Element {
    var name := Element("Nm", [], [Text("ACME")]);
    var iban := Element("IBAN", [], [Text("CH99")]);
    var id := Element("Id", [], [Elem(iban)]);
    Element("RltdPties", [], [
      Elem(Element("Dbtr", [], [Elem(name)])),
      Elem(Element("DbtrAcct", [], [Elem(id)]))])
  }

  lemma ScenarioDebtorAsCreditor()
    ensures ReadParties(DebtorOnlyBlock()) == PartyValues("ACME", UnknownAddress, "CH99")
    ensures RebuildParties(DebtorOnlyBlock(), Some("TxDtls"), Some("NtryDtls"))
      == PartiesBlock(PartyValues("ACME", UnknownAddress, "CH99"))
  {
    var x := DebtorOnlyBlock();
    var name, iban := x.children[0].elem.children[0].elem, x.children[1].elem.children[0].elem.children[0].elem;
    assert FindDescendant(x, "Nm") == Some(name);
    assert TextContent(name) == "ACME" by {
      assert ContentOf(name.children[1..]) == "";
    }
    assert FindInElem(x.children[1].elem, "AdrLine") == None;
    assert FindDescendant(x, "AdrLine") == None;
    assert FindDescendant(x, "IBAN") == Some(iban);
    assert TextContent(iban) == "CH99" by {
      assert ContentOf(iban.children[1..]) == "";
    }
  }

  // ---------------------------------------------------------------------
  // The block built by the converter

  /** A created element whose `textContent` is then assigned. */
  function Leaf(tag: string, s: string): (r: Element)
    ensures r.tag == tag && r.attrs == [] && TextContent(r) == s
  {
    SetText(Element(tag, [], []), s)
  }

  function PostalAddress(v: PartyValues): Element {
    Element("PstlAdr", [], [Elem(Leaf("AdrLine", v.adrLine))])
  }

  function Party(v: PartyValues): Element {
    Element("Pty", [], [Elem(Leaf("Nm", v.name)), Elem(PostalAddress(v))])
  }

  function Creditor(v: PartyValues): Element {
    Element("Cdtr", [], [Elem(Party(v))])
  }

  function AccountId(v: PartyValues): Element {
    Element("Id", [], [Elem(Leaf("IBAN", v.iban))])
  }

  function CreditorAccount(v: PartyValues): Element {
    Element("CdtrAcct", [], [Elem(AccountId(v))])
  }

  /** The replacement block for the given values. */
  function PartiesBlock(v: PartyValues): (r: Element)
    ensures NonEmptyValues(v) ==> HasTargetShape(r)
  {
    Element("RltdPties", [], [Elem(Creditor(v)), Elem(CreditorAccount(v))])
  }

  // ---------------------------------------------------------------------
  // The target shape, described independently of PartiesBlock

  /** A child that is an attribute-less `tag` element with `count` children. */
  predicate IsWrapper(n: Node, tag: string, count: nat) {
    n.Elem? && n.elem.tag == tag && n.elem.attrs == [] && |n.elem.children| == count
  }

  /** A child that is an attribute-less `tag` element holding one non-empty text. */
  predicate IsLeaf(n: Node, tag: string) {
    IsWrapper(n, tag, 1) && n.elem.children[0].Text? && n.elem.children[0].text != ""
  }

  /** `x` is `RltdPties` holding exactly `Cdtr` then `CdtrAcct`; `Cdtr` holds
      one `Pty` holding `Nm` then `PstlAdr`, which holds one `AdrLine`;
      `CdtrAcct` holds one `Id` holding one `IBAN`; no element has attributes
      and every leaf holds one non-empty text. */
  predicate HasTargetShape(x: Element) {
    && x.tag == "RltdPties" && x.attrs == [] && |x.children| == 2
    && IsWrapper(x.children[0], "Cdtr", 1)
    && IsWrapper(x.children[0].elem.children[0], "Pty", 2)
    && IsLeaf(x.children[0].elem.children[0].elem.children[0], "Nm")
    && IsWrapper(x.children[0].elem.children[0].elem.children[1], "PstlAdr", 1)
    && IsLeaf(x.children[0].elem.children[0].elem.children[1].elem.children[0], "AdrLine")
    && IsWrapper(x.children[1], "CdtrAcct", 1)
    && IsWrapper(x.children[1].elem.children[0], "Id", 1)
    && IsLeaf(x.children[1].elem.children[0].elem.children[0], "IBAN")
  }

  /** The block's elements in document order, with their parent and
      grandparent tags. */
  lemma BlockWalk(v: PartyValues, p: Option<string>, g: Option<string>)
    ensures Walk(PartiesBlock(v), p, g) == [
      Located(g, p, PartiesBlock(v)),
      Located(p, Some("RltdPties"), Creditor(v)),
      Located(Some("RltdPties"), Some("Cdtr"), Party(v)),
      Located(Some("Cdtr"), Some("Pty"), Leaf("Nm", v.name)),
      Located(Some("Cdtr"), Some("Pty"), PostalAddress(v)),
      Located(Some("Pty"), Some("PstlAdr"), Leaf("AdrLine", v.adrLine)),
      Located(p, Some("RltdPties"), CreditorAccount(v)),
      Located(Some("RltdPties"), Some("CdtrAcct"), AccountId(v)),
      Located(Some("CdtrAcct"), Some("Id"), Leaf("IBAN", v.iban))]
  {
    var rp, cd, pt, pa, ca, id := Some("RltdPties"), Some("Cdtr"), Some("Pty"), Some("PstlAdr"), Some("CdtrAcct"), Some("Id");
    WalkOfLeaf(Leaf("Nm", v.name), pt, cd);
    WalkOfLeaf(Leaf("AdrLine", v.adrLine), pa, pt);
    WalkOfLeaf(Leaf("IBAN", v.iban), id, ca);
    WalkOfOne(PostalAddress(v), Leaf("AdrLine", v.adrLine), pt, cd);
    WalkOfTwo(Party(v), Leaf("Nm", v.name), PostalAddress(v), cd, rp);
    WalkOfOne(Creditor(v), Party(v), rp, p);
    WalkOfOne(AccountId(v), Leaf("IBAN", v.iban), ca, rp);
    WalkOfOne(CreditorAccount(v), AccountId(v), rp, p);
    WalkOfTwo(PartiesBlock(v), Creditor(v), CreditorAccount(v), p, g);
  }

  /** The tags a built block is made of. */
  predicate IsBlockTag(t: string) {
    t in ["RltdPties", "Cdtr", "Pty", "Nm", "PstlAdr", "AdrLine", "CdtrAcct", "Id", "IBAN"]
  }

  /** A built block contains no element with a tag foreign to the block. */
  lemma BlockTags(v: PartyValues, p: Option<string>, g: Option<string>, t: string)
    requires !IsBlockTag(t)
    ensures forall l :: l in Walk(PartiesBlock(v), p, g) ==> l.elem.tag != t
  {
    BlockWalk(v, p, g);
  }

  /** Below its root, a built block holds no `RltdPties`. */
  lemma BlockHasOneRltdPties(v: PartyValues, p: Option<string>, g: Option<string>)
    ensures forall l :: l in Walk(PartiesBlock(v), p, g)[1..] ==> l.elem.tag != "RltdPties"
  {
    BlockWalk(v, p, g);
  }

  /** Reading a built block gives back the values it was built from. */
  lemma ReadPartiesBlock(v: PartyValues)
    requires NonEmptyValues(v)
    ensures ReadParties(PartiesBlock(v)) == v
  {
    ReadBlockName(v);
    ReadBlockAddress(v);
    ReadBlockIban(v);
  }

  lemma ReadBlockName(v: PartyValues)
    requires v.name != ""
    ensures FirstTextOr(PartiesBlock(v), "Nm", UnknownName) == v.name
  {
    var d := Walk(PartiesBlock(v), None, None)[1..];
    BlockWalk(v, None, None);
    assert d[0].elem == Creditor(v) && d[1].elem == Party(v) && d[2].elem == Leaf("Nm", v.name);
    FirstTaggedAt(d, "Nm", 2);
  }

  lemma ReadBlockAddress(v: PartyValues)
    requires v.adrLine != ""
    ensures FirstTextOr(PartiesBlock(v), "AdrLine", UnknownAddress) == v.adrLine
  {
    var d := Walk(PartiesBlock(v), None, None)[1..];
    BlockWalk(v, None, None);
    assert d[0].elem == Creditor(v) && d[1].elem == Party(v) && d[2].elem == Leaf("Nm", v.name);
    assert d[3].elem == PostalAddress(v) && d[4].elem == Leaf("AdrLine", v.adrLine);
    FirstTaggedAt(d, "AdrLine", 4);
  }

  lemma ReadBlockIban(v: PartyValues)
    requires v.iban != ""
    ensures FirstTextOr(PartiesBlock(v), "IBAN", PlaceholderIban) == v.iban
  {
    var d := Walk(PartiesBlock(v), None, None)[1..];
    BlockWalk(v, None, None);
    assert d[0].elem == Creditor(v) && d[1].elem == Party(v) && d[2].elem == Leaf("Nm", v.name);
    assert d[3].elem == PostalAddress(v) && d[4].elem == Leaf("AdrLine", v.adrLine);
    assert d[5].elem == CreditorAccount(v) && d[6].elem == AccountId(v) && d[7].elem == Leaf("IBAN", v.iban);
    FirstTaggedAt(d, "IBAN", 7);
  }

  /** Any element of the target shape is the block built from the values
      read from it. */
  lemma ShapeIsBlock(x: Element)
    requires HasTargetShape(x)
    ensures x == PartiesBlock(ReadParties(x))
  {
    var cdtr := x.children[0].elem;
    var pty := cdtr.children[0].elem;
    var nm := pty.children[0].elem;
    var pstl := pty.children[1].elem;
    var adr := pstl.children[0].elem;
    var acct := x.children[1].elem;
    var id := acct.children[0].elem;
    var iban := id.children[0].elem;
    var v := PartyValues(nm.children[0].text, adr.children[0].text, iban.children[0].text);
    assert nm == Leaf("Nm", v.name);
    assert adr == Leaf("AdrLine", v.adrLine);
    assert iban == Leaf("IBAN", v.iban);
    assert pstl.children == [Elem(adr)];
    assert pstl == PostalAddress(v);
    assert pty.children == [Elem(nm), Elem(pstl)];
    assert pty == Party(v);
    assert cdtr.children == [Elem(pty)];
    assert cdtr == Creditor(v);
    assert id.children == [Elem(iban)];
    assert id == AccountId(v);
    assert acct.children == [Elem(id)];
    assert acct == CreditorAccount(v);
    assert x.children == [Elem(cdtr), Elem(acct)];
    assert x == PartiesBlock(v);
    ReadPartiesBlock(v);
  }

  /** Rebuilding a block changes nothing exactly when it already has the
      target shape. */
  lemma RebuildBlockFixedIff(x: Element)
    ensures PartiesBlock(ReadParties(x)) == x <==> HasTargetShape(x)
  {
    if HasTargetShape(x) {
      ShapeIsBlock(x);
    }
  }

  // ---------------------------------------------------------------------
  // The pass

  /** The related-parties pass over the subtree rooted at `e`, where `p` and
      `g` are the tags of `e`'s parent and grandparent. An element at
      `NtryDtls/TxDtls/RltdPties` is replaced by a block of the target shape
      carrying the values read from it; nothing below it is visited. Every
      other element keeps its tag, its attributes, and the number, kind and
      tags of its children, its text children unchanged. */
  function RebuildParties(e: Element, p: Option<string>, g: Option<string>): (r: Element)
    ensures r.tag == e.tag
    ensures UnderTxDtls(p, g) && e.tag == "RltdPties" ==>
      HasTargetShape(r) && ReadParties(r) == ReadParties(e)
    ensures !(UnderTxDtls(p, g) && e.tag == "RltdPties") ==>
      && r.attrs == e.attrs
      && TagsOf(r.children) == TagsOf(e.children)
      && forall i :: 0 <= i < |e.children| && e.children[i].Text? ==> r.children[i] == e.children[i]
    decreases e
  {
    if UnderTxDtls(p, g) && e.tag == "RltdPties" then
      var v := ReadParties(e);
      ReadPartiesBlock(v);
      PartiesBlock(v)
    else
      e.(children := RebuildAll(e.children, Some(e.tag), p))
  }

  function RebuildAll(ns: seq<Node>, p: Option<string>, g: Option<string>): (rs: seq<Node>)
    ensures TagsOf(rs) == TagsOf(ns)
    ensures forall i :: 0 <= i < |ns| && ns[i].Text? ==> rs[i] == ns[i]
    decreases ns
  {
    if ns == [] then [] else [RebuildNode(ns[0], p, g)] + RebuildAll(ns[1..], p, g)
  }

  function RebuildNode(n: Node, p: Option<string>, g: Option<string>): (r: Node)
    ensures NodeTag(r) == NodeTag(n)
    ensures n.Text? ==> r == n
    decreases n
  {
    match n
    case Text(_) => n
    case Elem(c) => Elem(RebuildParties(c, p, g))
  }

  /** Every located `RltdPties` at `NtryDtls/TxDtls/RltdPties` has the target shape. */
  predicate PartiesRebuilt(ls: seq<Located>) {
    forall l :: l in ls && OnTxPath(l, "RltdPties") ==> HasTargetShape(l.elem)
  }

  /** Every related-parties block on the path is rebuilt. */
  lemma {:induction false} RebuildComplete(e: Element, p: Option<string>, g: Option<string>)
    ensures PartiesRebuilt(Walk(RebuildParties(e, p, g), p, g))
    decreases e
  {
    var r := RebuildParties(e, p, g);
    if UnderTxDtls(p, g) && e.tag == "RltdPties" {
      var v := ReadParties(e);
      BlockHasOneRltdPties(v, p, g);
      assert Walk(r, p, g) == [Located(g, p, r)] + Walk(r, p, g)[1..];
    } else {
      RebuildAllComplete(e.children, Some(e.tag), p);
    }
  }

  lemma {:induction false} RebuildAllComplete(ns: seq<Node>, p: Option<string>, g: Option<string>)
    ensures PartiesRebuilt(WalkAll(RebuildAll(ns, p, g), p, g))
    decreases ns
  {
    if ns != [] {
      var rs := RebuildAll(ns, p, g);
      assert rs[0] == RebuildNode(ns[0], p, g) && rs[1..] == RebuildAll(ns[1..], p, g);
      RebuildNodeComplete(ns[0], p, g);
      RebuildAllComplete(ns[1..], p, g);
    }
  }

  lemma {:induction false} RebuildNodeComplete(n: Node, p: Option<string>, g: Option<string>)
    ensures PartiesRebuilt(WalkNode(RebuildNode(n, p, g), p, g))
    decreases n
  {
    match n
    case Text(_) =>
    case Elem(c) => RebuildComplete(c, p, g);
  }

  /** A subtree whose related-parties blocks on the path all have the target
      shape is a fixed point of the pass; in particular a subtree with no such
      block at all is left untouched. */
  lemma {:induction false} RebuildFixedPoint(e: Element, p: Option<string>, g: Option<string>)
    requires PartiesRebuilt(Walk(e, p, g))
    ensures RebuildParties(e, p, g) == e
    decreases e
  {
    assert Located(g, p, e) in Walk(e, p, g);
    if UnderTxDtls(p, g) && e.tag == "RltdPties" {
      ShapeIsBlock(e);
    } else {
      RebuildAllFixedPoint(e.children, Some(e.tag), p);
    }
  }

  lemma {:induction false} RebuildAllFixedPoint(ns: seq<Node>, p: Option<string>, g: Option<string>)
    requires PartiesRebuilt(WalkAll(ns, p, g))
    ensures RebuildAll(ns, p, g) == ns
    decreases ns
  {
    if ns != [] {
      var head, tail := WalkNode(ns[0], p, g), WalkAll(ns[1..], p, g);
      assert WalkAll(ns, p, g) == head + tail;
      assert PartiesRebuilt(head) && PartiesRebuilt(tail) by {
        assert forall l :: l in head || l in tail ==> l in head + tail;
      }
      RebuildNodeFixedPoint(ns[0], p, g);
      RebuildAllFixedPoint(ns[1..], p, g);
      assert ns == [ns[0]] + ns[1..];
    }
  }

  lemma {:induction false} RebuildNodeFixedPoint(n: Node, p: Option<string>, g: Option<string>)
    requires PartiesRebuilt(WalkNode(n, p, g))
    ensures RebuildNode(n, p, g) == n
    decreases n
  {
    match n
    case Text(_) =>
    case Elem(c) => RebuildFixedPoint(c, p, g);
  }

  /** The pass maps each child on its own: the `i`th rebuilt child is the
      `i`th child rebuilt. */
  lemma {:induction false} RebuildAllAt(ns: seq<Node>, p: Option<string>, g: Option<string>, i: nat)
    requires i < |ns|
    ensures |RebuildAll(ns, p, g)| == |ns|
    ensures RebuildAll(ns, p, g)[i] == RebuildNode(ns[i], p, g)
    decreases i
  {
    if i > 0 {
      RebuildAllAt(ns[1..], p, g, i - 1);
    }
  }

  /** Outside a related-parties block, a child subtree that holds no block
      still to rebuild comes out of the pass exactly as it went in, whatever
      happens to its siblings. */
  lemma RebuildKeepsSibling(e: Element, p: Option<string>, g: Option<string>, i: nat)
    requires !(UnderTxDtls(p, g) && e.tag == "RltdPties")
    requires i < |e.children|
    requires PartiesRebuilt(WalkNode(e.children[i], Some(e.tag), p))
    ensures |RebuildParties(e, p, g).children| == |e.children|
    ensures RebuildParties(e, p, g).children[i] == e.children[i]
  {
    RebuildAllAt(e.children, Some(e.tag), p, i);
    RebuildNodeFixedPoint(e.children[i], Some(e.tag), p);
  }

  /** Running the related-parties pass twice is running it once. */
  lemma RebuildIdempotent(e: Element)
    ensures RebuildParties(RebuildParties(e, None, None), None, None) == RebuildParties(e, None, None)
  {
    RebuildComplete(e, None, None);
    RebuildFixedPoint(RebuildParties(e, None, None), None, None);
  }
}

=== FILE: strings.dfy ===
/** The two ECMAScript string operations the amount normaliser relies on:
    `String.prototype.trim` and `String.prototype.replace` with a string
    pattern (which replaces only the first occurrence). */
module Strings {
  import opened Wrappers

  /** ECMAScript WhiteSpace and LineTerminator code points: the characters
      `trim` removes (ECMA-262, sections 12.2 and 12.3). */
  predicate IsSpace(c: char) {
    || c == '\t' || c == '\n' || c == '\U{000B}' || c == '\U{000C}' || c == '\r'
    || c == ' ' || c == '\U{00A0}' || c == '\U{1680}'
    || ('\U{2000}' <= c <= '\U{200A}')
    || c == '\U{2028}' || c == '\U{2029}' || c == '\U{202F}' || c == '\U{205F}'
    || c == '\U{3000}' || c == '\U{FEFF}'
  }

  predicate AllSpace(s: string) {
    forall k :: 0 <= k < |s| ==> IsSpace(s[k])
  }

  /** Neither end of `s` is white space: what `trim` leaves behind. */
  predicate Trimmed(s: string) {
    s == [] || (!IsSpace(s[0]) && !IsSpace(s[|s| - 1]))
  }

  /** The first index at or after `i` that is not white space (`|s|` if
      there is none). */
  function LeadEnd(s: string, i: nat): (k: nat)
    requires i <= |s|
    ensures i <= k <= |s|
    ensures forall j :: i <= j < k ==> IsSpace(s[j])
    ensures k < |s| ==> !IsSpace(s[k])
    decreases |s| - i
  {
    if i < |s| && IsSpace(s[i]) then LeadEnd(s, i + 1) else i
  }

  /** The start of the run of white space that ends just before index `j`
      (`j` itself if `s[j - 1]` is not white space). */
  function TrailStart(s: string, j: nat): (k: nat)
    requires j <= |s|
    ensures k <= j
    ensures forall m :: k <= m < j ==> IsSpace(s[m])
    ensures 0 < k ==> !IsSpace(s[k - 1])
    decreases j
  {
    if 0 < j && IsSpace(s[j - 1]) then TrailStart(s, j - 1) else j
  }

  /** ECMAScript `s.trim()`: the contiguous middle part of `s` that is left
      when white space is removed from both ends. */
  function Trim(s: string): (r: string)
    ensures Trimmed(r)
    ensures var lead := LeadEnd(s, 0);
      && lead + |r| <= |s|
      && r == s[lead..lead + |r|]
      && (forall j :: 0 <= j < lead ==> IsSpace(s[j]))
      && (forall j :: lead + |r| <= j < |s| ==> IsSpace(s[j]))
  {
    var lead := LeadEnd(s, 0);
    var trail := TrailStart(s, |s|);
    if trail <= lead then [] else s[lead..trail]
  }

  /** The white space before `lead` and the non-space character at `lead`
      determine LeadEnd. */
  lemma LeadEndAt(s: string, lead: nat)
    requires lead <= |s|
    requires forall j :: 0 <= j < lead ==> IsSpace(s[j])
    requires lead < |s| ==> !IsSpace(s[lead])
    ensures LeadEnd(s, 0) == lead
  {
  }

  /** Trim removes exactly surrounding white space: any string made of white
      space, a trimmed core and white space trims to that core. Together with
      the decomposition in Trim's contract this characterises Trim fully. */
  lemma TrimPadded(a: string, t: string, b: string)
    requires AllSpace(a) && AllSpace(b) && Trimmed(t)
    ensures Trim(a + t + b) == t
  {
    var s := a + t + b;
    if t == [] {
      assert AllSpace(s) by {
        forall j | 0 <= j < |s| ensures IsSpace(s[j]) {
          if j < |a| { assert s[j] == a[j]; } else { assert s[j] == b[j - |a|]; }
        }
      }
      LeadEndAt(s, |s|);
    } else {
      assert forall j :: 0 <= j < |a| ==> s[j] == a[j];
      assert s[|a|] == t[0];
      LeadEndAt(s, |a|);
      assert s[|a| + |t| - 1] == t[|t| - 1];
      assert forall j :: |a| + |t| <= j < |s| ==> s[j] == b[j - |a| - |t|];
      assert s[|a|..|a| + |t|] == t;
    }
  }

  /** A string without white space at either end trims to itself. */
  lemma TrimOfTrimmed(s: string)
    requires Trimmed(s)
    ensures Trim(s) == s
  {
    assert "" + s + "" == s;
    TrimPadded("", s, "");
  }

  /** Trimming twice is trimming once. */
  lemma TrimIdempotent(s: string)
    ensures Trim(Trim(s)) == Trim(s)
  {
    TrimOfTrimmed(Trim(s));
  }

  /** Trim yields the empty string exactly for all-white-space input. */
  lemma TrimEmptyIff(s: string)
    ensures Trim(s) == "" <==> AllSpace(s)
  {
    if AllSpace(s) {
      TrimPadded(s, "", "");
      assert s + "" + "" == s;
    }
  }

  /** `pat` occurs in `s` starting at index `i`. */
  predicate OccursAt(s: string, pat: string, i: nat) {
    i + |pat| <= |s| && s[i..i + |pat|] == pat
  }

  /** First index at or after `from` where `pat` occurs in `s`. */
  function FindFrom(s: string, pat: string, from: nat): (r: Option<nat>)
    requires from <= |s|
    ensures r.Some? ==> from <= r.value && OccursAt(s, pat, r.value)
    ensures r.Some? ==> forall j :: from <= j < r.value ==> !OccursAt(s, pat, j)
    ensures r.None? ==> forall j :: from <= j <= |s| ==> !OccursAt(s, pat, j)
    decreases |s| - from
  {
    if OccursAt(s, pat, from) then Some(from)
    else if from == |s| then None
    else FindFrom(s, pat, from + 1)
  }

  /** ECMAScript `s.indexOf(pat)`, with None for -1. */
  function IndexOf(s: string, pat: string): Option<nat> {
    FindFrom(s, pat, 0)
  }

  /** ECMAScript `s.replace(pat, rep)` for a string `pat`: only the first
      occurrence is replaced; without an occurrence `s` comes back as is. */
  function ReplaceFirst(s: string, pat: string, rep: string): (r: string)
    ensures (forall j :: 0 <= j <= |s| ==> !OccursAt(s, pat, j)) ==> r == s
    ensures forall i: nat {:trigger OccursAt(s, pat, i)} ::
      && OccursAt(s, pat, i)
      && (forall j :: 0 <= j < i ==> !OccursAt(s, pat, j))
      ==> r == s[..i] + rep + s[i + |pat|..]
  {
    match IndexOf(s, pat)
    case None => s
    case Some(i) =>
      s[..i] + rep + s[i + |pat|..]
  }

  /** Removing the first occurrence of `pat` from `a + pat + b` gives `a + b`
      whenever the first character of `pat` does not appear in `a`. */
  lemma RemoveFirstAfterPrefix(a: string, pat: string, b: string)
    requires pat != []
    requires pat[0] !in a
    ensures ReplaceFirst(a + pat + b, pat, "") == a + b
  {
    var s := a + pat + b;
    assert OccursAt(s, pat, |a|) by {
      assert s[|a|..|a| + |pat|] == pat;
    }
    forall j | 0 <= j < |a|
      ensures !OccursAt(s, pat, j)
    {
      assert s[j] == a[j];
    }
    assert s[..|a|] == a;
    assert s[|a| + |pat|..] == b;
  }
}

=== FILE: wrappers.dfy ===
/** The optional-value datatype used wherever the converter may find nothing
    (an attribute lookup, a child or descendant search, a substring search). */
module Wrappers {

  datatype Option<+T> = None | Some(value: T)
}

=== FILE: xml.dfy ===
/** The parsed XML document the converter works on, reduced to what the
    conversion observes: elements with a tag, an ordered attribute list and an
    ordered list of element and text children. Namespace URIs are reduced to
    plain tag names and namespace declarations to plain attributes.

    Also defined here are the DOM operations the converter calls
    (`textContent` read and write, `setAttribute`), the `getAttribute`
    reading that the contracts use to read attributes back, and the two
    XPath selections the converter uses, as explicit traversals: the document-order
    walk `Walk` (what `//x` enumerates) and the first-descendant search
    `FindDescendant` (what `.//x` yields as its first node). */
module Xml {
  import opened Wrappers

  datatype Attr = Attr(name: string, value: string)

  datatype Element = Element(tag: string, attrs: seq<Attr>, children: seq<Node>)

  datatype Node = Elem(elem: Element) | Text(text: string)

  // ---------------------------------------------------------------------
  // textContent

  /** DOM `textContent` of an element: the concatenated text of all its
      descendant text nodes, in document order. */
  function TextContent(e: Element): string
    decreases e
  {
    ContentOf(e.children)
  }

  function ContentOf(ns: seq<Node>): string
    decreases ns
  {
    if ns == [] then "" else NodeText(ns[0]) + ContentOf(ns[1..])
  }

  function NodeText(n: Node): string
    decreases n
  {
    match n
    case Text(s) => s
    case Elem(c) => TextContent(c)
  }

  lemma {:induction false} ContentOfConcat(a: seq<Node>, b: seq<Node>)
    ensures ContentOf(a + b) == ContentOf(a) + ContentOf(b)
    decreases |a|
  {
    if a == [] {
      assert a + b == b;
    } else {
      assert (a + b)[1..] == a[1..] + b;
      ContentOfConcat(a[1..], b);
    }
  }

  /** The text content of a child list split around its `k`-th child. */
  lemma ContentOfAround(ns: seq<Node>, k: nat)
    requires k < |ns|
    ensures ContentOf(ns) == ContentOf(ns[..k]) + NodeText(ns[k]) + ContentOf(ns[k + 1..])
  {
    assert ns == ns[..k] + ns[k..];
    ContentOfConcat(ns[..k], ns[k..]);
    var rest := ns[k..];
    assert rest[0] == ns[k] && rest[1..] == ns[k + 1..];
    assert ContentOf(rest) == NodeText(ns[k]) + ContentOf(ns[k + 1..]);
  }

  /** The text nodes below an element, in document order, as a list of
      their strings. */
  function TextNodes(e: Element): seq<string>
    decreases e
  {
    TextNodesAll(e.children)
  }

  function TextNodesAll(ns: seq<Node>): seq<string>
    decreases ns
  {
    if ns == [] then [] else TextNodesNode(ns[0]) + TextNodesAll(ns[1..])
  }

  function TextNodesNode(n: Node): seq<string>
    decreases n
  {
    match n
    case Text(s) => [s]
    case Elem(c) => TextNodes(c)
  }

  /** The strings of a list joined end to end. */
  function Join(ss: seq<string>): string
    decreases ss
  {
    if ss == [] then "" else ss[0] + Join(ss[1..])
  }

  lemma {:induction false} JoinConcat(a: seq<string>, b: seq<string>)
    ensures Join(a + b) == Join(a) + Join(b)
    decreases |a|
  {
    if a == [] {
      assert a + b == b;
    } else {
      assert (a + b)[1..] == a[1..] + b;
      JoinConcat(a[1..], b);
    }
  }

  /** DOM `textContent` is the text of every descendant text node, joined in
      document order. */
  lemma {:induction false} TextContentInDocumentOrder(e: Element)
    ensures TextContent(e) == Join(TextNodes(e))
    decreases e
  {
    ContentInDocumentOrder(e.children);
  }

  lemma {:induction false} ContentInDocumentOrder(ns: seq<Node>)
    ensures ContentOf(ns) == Join(TextNodesAll(ns))
    decreases ns
  {
    if ns != [] {
      NodeTextInDocumentOrder(ns[0]);
      ContentInDocumentOrder(ns[1..]);
      JoinConcat(TextNodesNode(ns[0]), TextNodesAll(ns[1..]));
    }
  }

  lemma {:induction false} NodeTextInDocumentOrder(n: Node)
    ensures NodeText(n) == Join(TextNodesNode(n))
    decreases n
  {
    match n
    case Text(s) =>
      assert Join([s]) == s + Join([]);
    case Elem(c) => TextContentInDocumentOrder(c);
  }

  /** DOM `textContent` assignment on an element: every child is removed and,
      unless the new value is empty, one text node holding it is appended. */
  function SetText(e: Element, s: string): (r: Element)
    ensures TextContent(r) == s
    ensures r.tag == e.tag && r.attrs == e.attrs
    ensures forall i :: 0 <= i < |r.children| ==> r.children[i].Text?
  {
    var r := e.(children := if s == "" then [] else [Text(s)]);
    assert s != "" ==> ContentOf(r.children) == s + ContentOf([]);
    r
  }

  // ---------------------------------------------------------------------
  // Child tags

  /** The tag of a child node, or None for a text node. */
  function NodeTag(n: Node): Option<string> {
    match n
    case Elem(c) => Some(c.tag)
    case Text(_) => None
  }

  /** The element-or-text shape of a child list: one entry per child. */
  function TagsOf(ns: seq<Node>): (ts: seq<Option<string>>)
    ensures |ts| == |ns|
    ensures forall i :: 0 <= i < |ns| ==> ts[i] == NodeTag(ns[i])
  {
    seq(|ns|, i requires 0 <= i < |ns| => NodeTag(ns[i]))
  }

  /** Position of the first occurrence of `x` in `s`. */
  function FirstIndex<T(==)>(s: seq<T>, x: T): (r: Option<nat>)
    ensures r.Some? ==> r.value < |s| && s[r.value] == x
    ensures r.Some? ==> forall j :: 0 <= j < r.value ==> s[j] != x
    ensures r.None? <==> x !in s
  {
    if s == [] then None
    else if s[0] == x then Some(0)
    else match FirstIndex(s[1..], x)
      case Some(i) => Some(i + 1)
      case None => None
  }

  /** XPath `./tag` followed by `[0]`: the position of the first child
      element with the given tag. It depends on the children's tags only. */
  function FirstChild(ns: seq<Node>, tag: string): (r: Option<nat>)
    ensures r.Some? ==> r.value < |ns| && ns[r.value].Elem? && ns[r.value].elem.tag == tag
    ensures r.Some? ==> forall j :: 0 <= j < r.value ==> NodeTag(ns[j]) != Some(tag)
    ensures r.None? <==> forall j :: 0 <= j < |ns| ==> NodeTag(ns[j]) != Some(tag)
  {
    var r := FirstIndex(TagsOf(ns), Some(tag));
    assert r.None? ==> forall j :: 0 <= j < |ns| ==> TagsOf(ns)[j] != Some(tag);
    r
  }

  // ---------------------------------------------------------------------
  // Attributes

  /** DOM `getAttribute`: the value of the first attribute named `name`. */
  function GetAttr(attrs: seq<Attr>, name: string): Option<string> {
    if attrs == [] then None
    else if attrs[0].name == name then Some(attrs[0].value)
    else GetAttr(attrs[1..], name)
  }

  /** Attribute names are pairwise distinct, as XML well-formedness demands. */
  predicate UniqueNames(attrs: seq<Attr>) {
    forall i, j :: 0 <= i < j < |attrs| ==> attrs[i].name != attrs[j].name
  }

  /** DOM `setAttribute`: an attribute with that name gets the new value in
      place; otherwise the attribute is appended after all others. */
  function SetAttr(attrs: seq<Attr>, name: string, value: string): (r: seq<Attr>)
    ensures GetAttr(r, name) == Some(value)
    ensures forall other :: other != name ==> GetAttr(r, other) == GetAttr(attrs, other)
    ensures |r| == |attrs| + (if GetAttr(attrs, name).Some? then 0 else 1)
    ensures forall i :: 0 <= i < |attrs| ==> r[i].name == attrs[i].name
    ensures GetAttr(attrs, name).None? ==> r[|attrs|] == Attr(name, value)
  {
    if attrs == [] then [Attr(name, value)]
    else if attrs[0].name == name then [Attr(name, value)] + attrs[1..]
    else [attrs[0]] + SetAttr(attrs[1..], name, value)
  }

  lemma {:induction false} GetAttrSomeIn(attrs: seq<Attr>, name: string)
    ensures GetAttr(attrs, name).Some? <==> exists i :: 0 <= i < |attrs| && attrs[i].name == name
  {
    if attrs != [] {
      GetAttrSomeIn(attrs[1..], name);
      if attrs[0].name != name && GetAttr(attrs, name).None? {
        forall i | 0 <= i < |attrs| ensures attrs[i].name != name {
          if i > 0 {
            assert attrs[i] == attrs[1..][i - 1];
          }
        }
      }
    }
  }

  /** Setting an attribute never introduces a duplicate name. */
  lemma {:induction false} SetAttrKeepsUnique(attrs: seq<Attr>, name: string, value: string)
    requires UniqueNames(attrs)
    ensures UniqueNames(SetAttr(attrs, name, value))
  {
    var r := SetAttr(attrs, name, value);
    GetAttrSomeIn(attrs, name);
    forall i, j | 0 <= i < j < |r| ensures r[i].name != r[j].name {
      if j == |attrs| {
        assert r[j].name == name;
        assert attrs[i].name != name;
      }
    }
  }

  /** Setting an attribute to the value it already has changes nothing. */
  lemma {:induction false} SetAttrUnchanged(attrs: seq<Attr>, name: string, value: string)
    requires GetAttr(attrs, name) == Some(value)
    ensures SetAttr(attrs, name, value) == attrs
  {
    if attrs[0].name != name {
      SetAttrUnchanged(attrs[1..], name, value);
    }
  }

  // ---------------------------------------------------------------------
  // Document order

  /** An element together with the tags of its parent and grandparent
      (None where that ancestor is the document node, not an element). */
  datatype Located = Located(grandparent: Option<string>, parent: Option<string>, elem: Element)

  /** The element `e` and all its element descendants in document order,
      each with its parent and grandparent tags; `p` and `g` are those of `e`.
      This is the node list the XPath descendant-or-self axis enumerates. */
  function Walk(e: Element, p: Option<string>, g: Option<string>): (w: seq<Located>)
    ensures |w| >= 1 && w[0] == Located(g, p, e)
    decreases e
  {
    [Located(g, p, e)] + WalkAll(e.children, Some(e.tag), p)
  }

  function WalkAll(ns: seq<Node>, p: Option<string>, g: Option<string>): seq<Located>
    decreases ns
  {
    if ns == [] then [] else WalkNode(ns[0], p, g) + WalkAll(ns[1..], p, g)
  }

  function WalkNode(n: Node, p: Option<string>, g: Option<string>): seq<Located>
    decreases n
  {
    match n
    case Text(_) => []
    case Elem(c) => Walk(c, p, g)
  }

  /** The walk of an element is the element itself followed by the walks of
      its element children, each located under it; nothing else occurs. */
  lemma WalkMembers(e: Element, p: Option<string>, g: Option<string>, l: Located)
    ensures l in Walk(e, p, g) <==>
      l == Located(g, p, e)
      || exists i :: 0 <= i < |e.children| && l in WalkNode(e.children[i], Some(e.tag), p)
  {
    WalkAllMembers(e.children, Some(e.tag), p, l);
  }

  lemma {:induction false} WalkAllMembers(ns: seq<Node>, p: Option<string>, g: Option<string>, l: Located)
    ensures l in WalkAll(ns, p, g) <==> exists i :: 0 <= i < |ns| && l in WalkNode(ns[i], p, g)
    decreases ns
  {
    if ns != [] {
      WalkAllMembers(ns[1..], p, g, l);
      if l in WalkAll(ns[1..], p, g) {
        var i :| 0 <= i < |ns[1..]| && l in WalkNode(ns[1..][i], p, g);
        assert l in WalkNode(ns[i + 1], p, g);
      }
      if exists i :: 0 <= i < |ns| && l in WalkNode(ns[i], p, g) {
        var i :| 0 <= i < |ns| && l in WalkNode(ns[i], p, g);
        if i > 0 {
          assert l in WalkNode(ns[1..][i - 1], p, g);
        }
      }
    }
  }

  /** Located elements of a child list made of text nodes only: none. */
  lemma {:induction false} WalkAllOfText(ns: seq<Node>, p: Option<string>, g: Option<string>)
    requires forall i :: 0 <= i < |ns| ==> ns[i].Text?
    ensures WalkAll(ns, p, g) == []
    decreases |ns|
  {
    if ns != [] {
      WalkAllOfText(ns[1..], p, g);
    }
  }

  /** The walk of an element whose children are all text: the element alone. */
  lemma WalkOfLeaf(e: Element, p: Option<string>, g: Option<string>)
    requires forall i :: 0 <= i < |e.children| ==> e.children[i].Text?
    ensures Walk(e, p, g) == [Located(g, p, e)]
  {
    WalkAllOfText(e.children, Some(e.tag), p);
  }

  /** The walk of an element with exactly one child, an element. */
  lemma WalkOfOne(e: Element, c: Element, p: Option<string>, g: Option<string>)
    requires e.children == [Elem(c)]
    ensures Walk(e, p, g) == [Located(g, p, e)] + Walk(c, Some(e.tag), p)
  {
    assert e.children[1..] == [];
    assert WalkAll(e.children, Some(e.tag), p) == Walk(c, Some(e.tag), p) + [];
  }

  /** The walk of an element with exactly two children, both elements. */
  lemma WalkOfTwo(e: Element, c1: Element, c2: Element, p: Option<string>, g: Option<string>)
    requires e.children == [Elem(c1), Elem(c2)]
    ensures Walk(e, p, g) == [Located(g, p, e)] + Walk(c1, Some(e.tag), p) + Walk(c2, Some(e.tag), p)
  {
    var ns := e.children;
    var q := Some(e.tag);
    assert ns[1..] == [Elem(c2)] && ns[1..][1..] == [];
    assert WalkAll(ns[1..], q, p) == Walk(c2, q, p) + [];
    assert WalkAll(ns, q, p) == Walk(c1, q, p) + WalkAll(ns[1..], q, p);
    assert Walk(e, p, g) == [Located(g, p, e)] + (Walk(c1, q, p) + Walk(c2, q, p));
  }

  /** Element `l` is a `tag` element sitting at XPath `NtryDtls/TxDtls/tag`. */
  predicate OnTxPath(l: Located, tag: string) {
    l.elem.tag == tag && UnderTxDtls(l.parent, l.grandparent)
  }

  /** The parent is `TxDtls` and the grandparent `NtryDtls`. */
  predicate UnderTxDtls(p: Option<string>, g: Option<string>) {
    p == Some("TxDtls") && g == Some("NtryDtls")
  }

  /** Number of located elements with the given tag. */
  function CountTagged(ls: seq<Located>, tag: string): nat {
    if ls == [] then 0
    else (if ls[0].elem.tag == tag then 1 else 0) + CountTagged(ls[1..], tag)
  }

  lemma {:induction false} CountTaggedConcat(a: seq<Located>, b: seq<Located>, tag: string)
    ensures CountTagged(a + b, tag) == CountTagged(a, tag) + CountTagged(b, tag)
    decreases |a|
  {
    if a == [] {
      assert a + b == b;
    } else {
      assert (a + b)[1..] == a[1..] + b;
      CountTaggedConcat(a[1..], b, tag);
    }
  }

  /** The first located element with the given tag. */
  function FirstTagged(ls: seq<Located>, tag: string): (r: Option<Element>)
    ensures r.None? <==> forall j :: 0 <= j < |ls| ==> ls[j].elem.tag != tag
    ensures r.Some? ==> r.value.tag == tag
  {
    if ls == [] then None
    else if ls[0].elem.tag == tag then Some(ls[0].elem)
    else FirstTagged(ls[1..], tag)
  }

  /** The first `tag` element of the index `k`, if no earlier one exists,
      is what FirstTagged returns: the independent, index-based reading. */
  lemma {:induction false} FirstTaggedAt(ls: seq<Located>, tag: string, k: nat)
    requires k < |ls| && ls[k].elem.tag == tag
    requires forall j :: 0 <= j < k ==> ls[j].elem.tag != tag
    ensures FirstTagged(ls, tag) == Some(ls[k].elem)
    decreases k
  {
    if k > 0 {
      FirstTaggedAt(ls[1..], tag, k - 1);
    }
  }

  lemma {:induction false} FirstTaggedConcat(a: seq<Located>, b: seq<Located>, tag: string)
    ensures FirstTagged(a + b, tag) ==
      (if FirstTagged(a, tag).Some? then FirstTagged(a, tag) else FirstTagged(b, tag))
    decreases |a|
  {
    if a == [] {
      assert a + b == b;
    } else if a[0].elem.tag != tag {
      assert (a + b)[1..] == a[1..] + b;
      FirstTaggedConcat(a[1..], b, tag);
    }
  }

  // ---------------------------------------------------------------------
  // First descendant by tag

  /** XPath `.//tag` followed by `[0]`: the first element descendant of `e`
      (not `e` itself) with the given tag, searched depth first. */
  function FindDescendant(e: Element, tag: string): Option<Element> {
    FindAmong(e.children, tag)
  }

  function FindAmong(ns: seq<Node>, tag: string): Option<Element>
    decreases ns
  {
    if ns == [] then None
    else match FindInNode(ns[0], tag)
      case Some(x) => Some(x)
      case None => FindAmong(ns[1..], tag)
  }

  function FindInNode(n: Node, tag: string): Option<Element>
    decreases n
  {
    match n
    case Text(_) => None
    case Elem(c) => FindInElem(c, tag)
  }

  function FindInElem(e: Element, tag: string): Option<Element>
    decreases e
  {
    if e.tag == tag then Some(e) else FindAmong(e.children, tag)
  }

  /** The depth-first search finds exactly the first `tag` element in
      document order among the descendants. */
  lemma FindDescendantInDocumentOrder(e: Element, tag: string, p: Option<string>, g: Option<string>)
    ensures FindDescendant(e, tag) == FirstTagged(Walk(e, p, g)[1..], tag)
  {
    assert Walk(e, p, g)[1..] == WalkAll(e.children, Some(e.tag), p);
    FindAmongInOrder(e.children, tag, Some(e.tag), p);
  }

  lemma {:induction false} FindAmongInOrder(ns: seq<Node>, tag: string, p: Option<string>, g: Option<string>)
    ensures FindAmong(ns, tag) == FirstTagged(WalkAll(ns, p, g), tag)
    decreases ns
  {
    if ns != [] {
      FindNodeInOrder(ns[0], tag, p, g);
      FindAmongInOrder(ns[1..], tag, p, g);
      FirstTaggedConcat(WalkNode(ns[0], p, g), WalkAll(ns[1..], p, g), tag);
    }
  }

  lemma {:induction false} FindNodeInOrder(n: Node, tag: string, p: Option<string>, g: Option<string>)
    ensures FindInNode(n, tag) == FirstTagged(WalkNode(n, p, g), tag)
    decreases n
  {
    match n
    case Text(_) =>
    case Elem(c) => FindElemInOrder(c, tag, p, g);
  }

  lemma {:induction false} FindElemInOrder(e: Element, tag: string, p: Option<string>, g: Option<string>)
    ensures FindInElem(e, tag) == FirstTagged(Walk(e, p, g), tag)
    decreases e
  {
    FindAmongInOrder(e.children, tag, Some(e.tag), p);
    FirstTaggedConcat([Located(g, p, e)], WalkAll(e.children, Some(e.tag), p), tag);
  }
}
